=== FILE: README.md ===
# A Dafny model of reth's transaction selection, Engine API guards, fork-to-spec mapping and launch helpers

This project models four parts of the reth execution client and proves
properties about them.

- **Best-transaction iteration** (`crates/transaction-pool/src/pool/best.rs`).
  `BestTransactions` yields pending transactions highest priority first. It only
  yields a sender's next nonce once its ancestor is gone. It skips senders
  marked invalid and, on request, blob transactions. It takes in transactions
  that arrive while it runs, until one of them outranks what it already
  yielded. Three wrappers are modelled on top of it:
  - a fee filter (`BestTransactionsWithFees`);
  - a predicate filter (`BestTransactionFilter`);
  - a sender-prioritising iterator with a gas budget
    (`BestTransactionsWithPrioritizedSenders`).

  Modules: `BestTransactions` (`best_transactions.dfy`), `BestWrappers`
  (`best_wrappers.dfy`).
- **Engine API request handling** (`crates/rpc/rpc-engine-api/src/engine_api.rs`).
  It covers the size and range guards of the payload-body requests, the
  range clamping and the error propagation of the block reads. It also covers
  the blob-request limit, the forkchoice-update path that drops malformed
  payload attributes, and the `engine_newPayloadV4` requests-hash gate. Module
  `EngineApi` (`engine_api.dfy`).
- **Hardfork to EVM spec mapping** (`crates/ethereum/evm/src/config.rs`).
  `revm_spec_by_timestamp_and_block_number` picks the newest active hardfork.
  The model proves it equal to a first-active search over the forks listed
  newest first, and checks the source's mainnet examples. Module `EvmConfig`
  (`evm_config.dfy`).
- **Launch helpers** (`crates/node/builder/src/launch/common.rs`). These are
  the global thread-pool size, prune-configuration precedence and saving, the
  pipeline-consistency check behind the initial backfill target, the OP
  mainnet Bedrock check, and the `Attached` pair. Module `Launch`
  (`launch.dfy`).

`wrappers.dfy` defines the `Option` and `Result` types that every module
uses for absent values and error paths.

Modelling choices:
- The iterator's ordered set of independent transactions is a strictly
  ascending sequence.
- The subscription channel is a finite queue, or `None` once it is detached.
- Database and pool reads are function-valued fields that may return an
  error.
- Chain-spec activation is a pair of predicates supplied by the caller.
- Integers are unbounded. The `u64` values of the Engine API are a subset
  type, and the range end saturates at `u64::MAX` explicitly.

## Model

| member | source | states |
|---|---|---|
| BestTransactions.Insert | crates/transaction-pool/src/pool/best.rs:169-172 | Ordered-set insertion keeps the set ascending. The transaction is added exactly when no element of the same rank is present. The size grows by one in that case and stays the same otherwise. |
| BestTransactions.MarkInvalid | crates/transaction-pool/src/pool/best.rs:109-115 | The transaction's sender joins the invalid set. No other sender is added and no other part of the iterator changes. |
| BestTransactions.TryRecv | crates/transaction-pool/src/pool/best.rs:126-154 | Returns the head of the queue unless it has strictly higher priority than the last yielded transaction. In that case the queued transaction is consumed and nothing is returned. An empty or detached channel returns nothing and changes nothing. Nothing but the channel changes. |
| BestTransactions.Admit | crates/transaction-pool/src/pool/best.rs:168-173 | A received transaction is always recorded in `all`. It joins the independent set exactly when it has no ancestor in `all` and no element of equal rank is there. The iterator's invariants are kept. |
| BestTransactions.AddNewTransactions | crates/transaction-pool/src/pool/best.rs:166-175 | Draining the channel keeps the invariants, keeps every independent transaction and never shrinks `all`. It leaves the invalid set, last priority and blob flag alone. What is left in the queue is a suffix of it. When something is left, the last transaction taken outranked the last yielded one, and every earlier one did not. Every taken transaction that did not outrank it is recorded in `all`. Only taken transactions are added: a new independent entry, or an entry of `all` that changed, is one of them. When nothing was received the iterator is unchanged. |
| BestTransactions.IntakeDrainsWithoutPriority | crates/transaction-pool/src/pool/best.rs:166-175 | Before anything is yielded, intake empties the queue, records every queued transaction in `all`, and a second intake changes nothing. |
| BestTransactions.PopBest | crates/transaction-pool/src/pool/best.rs:158-162 | Returns nothing exactly when the independent set is empty. Otherwise it removes the highest-ranked independent transaction from both the independent set and `all`, and every other independent transaction ranks below it. |
| BestTransactions.Unlock | crates/transaction-pool/src/pool/best.rs:217-220 | The only transaction that can become independent is the popped one's successor nonce, taken from `all`. When that successor is in `all`, a transaction of its rank is independent afterwards. Every other independent transaction stays. Nothing else changes. |
| BestTransactions.Iterate | crates/transaction-pool/src/pool/best.rs:201-237 | One loop round. It stops only when the independent set is empty. It otherwise takes the best transaction. A yield has a valid sender, is not a blob while blobs are skipped, leaves the invalid set unchanged, and records its priority only while subscribed. A skip adds exactly the skipped transaction's sender to the invalid set. Every other independent transaction stays. The successor nonce of a taken transaction with a valid sender becomes independent when it is in `all`, as that pooled entry, and nothing else can. The state moves down a well-founded order. |
| BestTransactions.Next | crates/transaction-pool/src/pool/best.rs:200-238 | `next()` terminates. A yielded transaction comes from the iterator's pool: it was independent, pooled under its own id, or queued on the channel. Its sender is not invalid, and it is not a blob while blobs are skipped. Without blob skipping the invalid set is unchanged, and it never shrinks. The end of iteration leaves no independent transaction. |
| BestTransactions.NextYieldsBest | crates/transaction-pool/src/pool/best.rs:200-238 | `next()` yields the best transaction. After intake, every independent transaction ranked above the yield, or any at all when nothing is yielded, has a sender in the end-of-call invalid set. `NextMarksSkippedBlobsOnly` bounds that set, so this cannot be met by marking senders invalid at will. |
| BestTransactions.NextYieldsPoppable | crates/transaction-pool/src/pool/best.rs:202-204 | The yield was poppable when `next()` was called: in the independent set, or queued on the channel. |
| BestTransactions.NextMarksSkippedBlobsOnly | crates/transaction-pool/src/pool/best.rs:207-230 | Every sender `next()` newly marks invalid sent a blob transaction that was poppable at the call. Without a subscription that blob also ranks above the yield, so it was popped before it. |
| BestTransactions.NextKnownOnly | crates/transaction-pool/src/pool/best.rs:202-220 | After `next()`, every poppable transaction was already poppable, or has a sender now invalid, or shares the yield's sender, as the successor nonce the yield unlocked does. |
| BestTransactions.NextAccounted | crates/transaction-pool/src/pool/best.rs:200-238 | No transaction is lost. Every independent transaction after intake is still independent after `next()`, or is the yield, or has a sender now invalid. |
| BestTransactions.NoUpdates | crates/transaction-pool/src/pool/best.rs:183-186 | Detaches the channel and forgets the last priority, changing nothing else. |
| BestTransactions.SetSkipBlobs | crates/transaction-pool/src/pool/best.rs:192-194 | Sets the blob flag and changes nothing else. |
| BestTransactions.NoUpdatesStopsIntake | crates/transaction-pool/src/pool/best.rs:183-186 | After `no_updates`, intake is a no-op and `next()` never records a last priority again. |
| BestTransactions.IterateKeepsSenderOrder | crates/transaction-pool/src/pool/best.rs:74-80 | One round keeps each sender's lowest pending nonce as its only independent entry. A taken transaction leaves only higher nonces of its sender in `all`. |
| BestTransactions.NextKeepsSenderOrder | crates/transaction-pool/src/pool/best.rs:74-80 | Without a subscription, `next()` keeps the sender ordering and only forgets entries of `all`. It yields a transaction of `all`, and every transaction of that sender left in `all` has a higher nonce. |
| BestTransactions.Run | crates/transaction-pool/src/pool/best.rs:200-238 | Repeated `next()` yields at most n transactions, none from a sender invalid at the start. Fewer than n only when the iterator is exhausted: the following `next()` yields nothing. The first item is what one `next()` yields. Without a subscription it yields transactions from `all` with each sender's nonces strictly increasing. |
| BestWrappers.NextFiltered | crates/transaction-pool/src/pool/best.rs:265-276 | The filter yields only transactions its predicate accepts. Those are neither invalid-sender nor, when skipped, blob transactions. Ending leaves no independent transaction. |
| BestWrappers.FilterAcceptingAllIsNext | crates/transaction-pool/src/pool/best.rs:265-276 | A predicate that accepts everything makes the filter the inner `next()`. |
| BestWrappers.FilterYieldsBest | crates/transaction-pool/src/pool/best.rs:265-276 | The filter yields the best accepted transaction. After intake, every independent transaction ranked above the yield, or any when nothing is yielded, has a sender in the end-of-call invalid set, so a rejected transaction marks its sender invalid. The yield was poppable at the call. Every newly invalid sender had a poppable transaction that was rejected or was a skipped blob; without a subscription it also ranks above the yield. |
| BestWrappers.NextWithFees | crates/transaction-pool/src/pool/best.rs:52-71 | Every yielded transaction pays at least the base fee and, when it carries a blob fee cap, at least the blob base fee. |
| BestWrappers.WithFeesIsFilter | crates/transaction-pool/src/pool/best.rs:52-71 | The fee iterator equals the predicate filter with the fee check as predicate, for every state. |
| BestWrappers.FeesYieldBest | crates/transaction-pool/src/pool/best.rs:52-71 | The fee iterator yields the best transaction that pays. Every independent transaction ranked above it after intake has a sender in the end-of-call invalid set, so an underpriced transaction marks its sender invalid. The yield was poppable. Every newly invalid sender had a poppable transaction that was underpriced or a skipped blob; without a subscription it also ranks above the yield. |
| BestWrappers.Scan | crates/transaction-pool/src/pool/best.rs:347-357 | The prioritising scan keeps the existing buffer as a prefix and buffers no hit. A hit is charged its gas limit. Otherwise the inner iterator is drained and no gas is charged. The first newly buffered transaction is what the inner `next()` yielded. When nothing was buffered, a hit is the inner `next()` and draining means the inner `next()` yields nothing. |
| BestWrappers.ScanBuffersFirst | crates/transaction-pool/src/pool/best.rs:348-355 | A non-prioritised transaction from the inner iterator is appended to the buffer, after the existing entries. |
| BestWrappers.ScanIsRun | crates/transaction-pool/src/pool/best.rs:347-357 | A scan is a run of the inner iterator: for some n, it buffered exactly the n transactions that n inner `next()` calls yield, in order, after the old buffer. One more inner call returns the hit, or nothing when drained, and leaves the inner iterator where the scan left it. |
| BestWrappers.ScanOutcomeOf | crates/transaction-pool/src/pool/best.rs:347-364 | A scan that buffered n transactions, followed by returning the hit or by serving, is the outcome of n inner calls. None of those calls yielded a hit. Either the next call yields a hit, which is returned and charged with the buffer extended by the run, or it yields nothing and the extended buffer is served. |
| BestWrappers.PrioritizedNext | crates/transaction-pool/src/pool/best.rs:345-365 | Gas is charged only for a prioritised-sender hit and only while under budget. The budget is never exceeded. A non-empty buffer is served first-in first-out unless a hit comes first. With an empty buffer the yield is the inner `next()`, or a hit found after buffering that transaction at the front, or, when the inner iterator was exhausted by the scan, its next `next()`. Once the budget is reached, the buffer's head is served and the inner iterator is untouched. Nothing is returned only when the buffer is empty and the inner iterator has no independent transaction left. |
| BestWrappers.PrioritizedNextIsRun | crates/transaction-pool/src/pool/best.rs:345-365 | Under budget, the wrapper's whole step is determined by the inner iterator: for some k, the first k inner calls yield no hit and are appended to the buffer in order. Then either the next call's hit is returned and charged, with the inner iterator left after it, or the inner iterator is exhausted and the oldest buffered transaction is served, or, with nothing buffered, the inner iterator's next call. Over budget it only serves, with gas unchanged. Nothing passed over is dropped. |
| BestWrappers.NoSendersYieldsNext | crates/transaction-pool/src/pool/best.rs:345-365 | With no prioritised senders and an empty buffer, the wrapper yields what the inner iterator yields. |
| BestWrappers.RetainNonBlobs | crates/transaction-pool/src/pool/best.rs:383 | Keeps exactly the non-blob transactions of the buffer. |
| BestWrappers.RetainConcat | crates/transaction-pool/src/pool/best.rs:383 | Retaining distributes over concatenation, so the kept transactions stay in buffer order. |
| BestWrappers.RetainNonBlobsKeepsBlobFree | crates/transaction-pool/src/pool/best.rs:383 | Retaining non-blob transactions of a blob-free buffer changes nothing. |
| BestWrappers.PrioritizedSetSkipBlobs | crates/transaction-pool/src/pool/best.rs:381-386 | Setting the flag drops blob transactions from the buffer only when skipping, keeping the others in order, and passes the flag to the inner iterator. |
| EngineApi.RangeEnd | crates/rpc/rpc-engine-api/src/engine_api.rs:576-584 | The inclusive range end saturates at `u64::MAX`. It never exceeds the best block when that is known. It is one of those three bounds. |
| EngineApi.GetPayloadBodiesByRange | crates/rpc/rpc-engine-api/src/engine_api.rs:563-598 | A count above 1024 is too large. A zero start or count is an invalid range. A read error fails the request with an internal error. Otherwise entry i is the body of block start+i, and no block past the best is served. The response is short of `count` only when it reached `u64::MAX` or the best block. |
| EngineApi.RangeRequestExamples | crates/rpc/rpc-engine-api/src/engine_api.rs:1289-1314 | The ranges (0,0), (0,1) and (1,0) are invalid, and 1025 bodies from block 0 is too large. |
| EngineApi.GetPayloadBodiesByHash | crates/rpc/rpc-engine-api/src/engine_api.rs:645-673 | More than 1024 hashes is too large. Otherwise the request fails, with an internal error, exactly when some read fails. On success entry i is the body for hash i. |
| EngineApi.GetBlobs | crates/rpc/rpc-engine-api/src/engine_api.rs:757-769 | More than 128 hashes is rejected for size, and only then. Otherwise a pool error becomes an internal error and the pool's answer is returned unchanged. `get_blobs_v2` (lines 792-804) is the same function over the version-2 answer type. |
| EngineApi.BlobLimitIgnoresPool | crates/rpc/rpc-engine-api/src/engine_api.rs:43 | The size rejection is the same whatever the pool answers and whichever version's answer type is used. |
| EngineApi.ValidateAndExecuteForkchoice | crates/rpc/rpc-engine-api/src/engine_api.rs:712-750 | Valid or absent attributes are passed to the update. Malformed ones are dropped but the update is still applied. An invalid update response or an update error wins over the attribute error. |
| EngineApi.MalformedAttributesStartNoBuild | crates/rpc/rpc-engine-api/src/engine_api.rs:724-746 | With malformed attributes, a successful response is an INVALID status. |
| EngineApi.NewPayloadV4 | crates/rpc/rpc-engine-api/src/engine_api.rs:907-920 | A requests hash is refused unless explicitly accepted. Otherwise the payload is executed. |
| EvmConfig.ForkOf | crates/ethereum/evm/src/config.rs:24-91 | Every revm spec named by the mapping comes from a hardfork, so the mapping is onto. |
| EvmConfig.RankInjective | crates/ethereum/evm/src/config.rs:24-91 | The fork order and the fork-to-spec map are both injective, and `ForkOf` inverts the latter. |
| EvmConfig.RevmSpecByTimestampAndBlockNumber | crates/ethereum/evm/src/config.rs:16-97 | The returned spec belongs to an active fork, and no active fork is newer. It fails only when no fork is active. |
| EvmConfig.RevmSpec | crates/ethereum/evm/src/config.rs:7-13 | The header's timestamp and number select the spec. |
| EvmConfig.FirstActive | crates/ethereum/evm/src/config.rs:24-91 | The reference search returns an active fork of the list, and none exactly when no listed fork is active. |
| EvmConfig.FirstActiveIsNewest | crates/ethereum/evm/src/config.rs:24-91 | Over a newest-first list, the first active fork is the newest active one. |
| EvmConfig.NewestFirstListsEveryFork | crates/ethereum/evm/src/config.rs:24-91 | The checked order, Osaka down to Frontier, is strictly newest first and names every fork. |
| EvmConfig.RevmSpecIsFirstActive | crates/ethereum/evm/src/config.rs:16-97 | The if-chain equals the spec of the first active fork in the newest-first list, and fails exactly when there is none. |
| EvmConfig.MergeIgnoresTimestamp | crates/ethereum/evm/src/config.rs:44-45 | When no later fork is active, whether the result is MERGE does not depend on the timestamp. |
| EvmConfig.ActivatedUpTo | crates/ethereum/evm/src/config.rs:132-206 | A chain with every fork up to a given one active from genesis activates exactly those forks. The builder's `<fork>_activated()` keeps mainnet's later forks at their published activations, so it agrees with this chain only before those, as at the genesis header the tests use. |
| EvmConfig.GenesisActivation | crates/ethereum/evm/src/config.rs:132-206 | For such a chain the genesis header maps to the chosen fork's spec. |
| EvmConfig.MainnetFollowsSchedule | crates/ethereum/evm/src/config.rs:16-97 | On mainnet every header maps to the fork its published schedule names: the newest fork whose activation timestamp (Shanghai, Cancun, Prague) or block number has been reached, down to FRONTIER. The schedule is a separate table of activation values, not the if-chain. |
| EvmConfig.MainnetTimestampExamples | crates/ethereum/evm/src/config.rs:209-216 | Mainnet at the Cancun and Shanghai activation times maps to CANCUN and SHANGHAI. |
| EvmConfig.MainnetParisBoundary | crates/ethereum/evm/src/config.rs:218-228 | Mainnet at the Paris block is MERGE, and ten blocks earlier is LONDON. |
| EvmConfig.MainnetBerlinBoundary | crates/ethereum/evm/src/config.rs:229-236 | Ten blocks past Berlin is BERLIN, and ten before is ISTANBUL. |
| EvmConfig.MainnetPetersburgBoundary | crates/ethereum/evm/src/config.rs:237-244 | Ten blocks past Petersburg is PETERSBURG, and ten before is BYZANTIUM. |
| EvmConfig.MainnetSpuriousDragonBoundary | crates/ethereum/evm/src/config.rs:245-252 | Ten blocks past Spurious Dragon is SPURIOUS_DRAGON, and ten before is TANGERINE. |
| EvmConfig.MainnetHomesteadBoundary | crates/ethereum/evm/src/config.rs:253-260 | Ten blocks past Homestead is HOMESTEAD, and ten before is FRONTIER. |
| EvmConfig.MainnetBlockExamples | crates/ethereum/evm/src/config.rs:208-261 | All block-number examples of the mainnet test hold together. |
| Launch.ThreadCount | crates/node/builder/src/launch/common.rs:220-224 | Unknown parallelism gives 0. Otherwise the count is the cores minus the reserved ones, at least 1 and at most the cores. |
| Launch.PruneConfig | crates/node/builder/src/launch/common.rs:405-420 | Without a command-line configuration the toml one is used. With one, it wins, merged with the toml one. The result is absent only when both are. |
| Launch.SavePruningConfig | crates/node/builder/src/launch/common.rs:176-194 | Only an empty toml section is filled, from the command line, and then saved. The call fails only when that save fails. A toml section without a command-line configuration draws the warning. |
| Launch.SavedConfigFeedsPruneConfig | crates/node/builder/src/launch/common.rs:184-192 | After saving, a prune configuration is in effect exactly when either source had one. |
| Launch.EnsureChainSpecificDbChecks | crates/node/builder/src/launch/common.rs:884-900 | Only OP mainnet outside dev mode is checked. There, a read error is passed on, and a last block below 105235063 fails with best-block-not-found. |
| Launch.ScanStages | crates/node/builder/src/launch/common.rs:924-943 | The stage loop stops at the first stage behind the first checkpoint, with all earlier stages read and caught up. A read error is passed on exactly when it comes from the first stage that fails to read, with every earlier stage caught up. A behind stage with every earlier stage caught up is the one reported. Otherwise every stage is caught up. |
| Launch.CheckPipelineConsistency | crates/node/builder/src/launch/common.rs:913-948 | An error reading the first checkpoint is passed on. An error reading a later stage is passed on when every stage between them read successfully and was caught up. A hash is returned only when some later stage is behind, and it is the hash of the first stage's checkpoint block; the first behind stage decides that. When all stages are caught up, the result is the chain-specific check's outcome with no target. |
| Launch.InitialBackfillTarget | crates/node/builder/src/launch/common.rs:861-869 | A configured tip is the target and the database is not consulted. Otherwise the pipeline-consistency result is used. |
| Launch.TipOverridesDatabase | crates/node/builder/src/launch/common.rs:861-869 | With a tip, the target is the same for every database. |
| Launch.TerminateAfterInitialBackfill | crates/node/builder/src/launch/common.rs:876-878 | Terminate exactly when `debug.terminate` is set or a max block is configured. |
| Launch.MapLeft | crates/node/builder/src/launch/common.rs:1097-1102 | Transforms the left value and keeps the right one. |
| Launch.MapRight | crates/node/builder/src/launch/common.rs:1105-1110 | Transforms the right value and keeps the left one. |
| Launch.MapLeftRightCommute | crates/node/builder/src/launch/common.rs:1097-1110 | Mapping both sides commutes, and the identity map changes nothing. |
| Launch.WriteThroughLeftMutAsWritten | crates/node/builder/src/launch/common.rs:1122-1125 | `Attached::left_mut` as written: a write through it changes `right` and leaves `left` alone. |
| Launch.LeftMutAsWrittenMissesLeft | crates/node/builder/src/launch/common.rs:1122-1125 | A concrete write through it that does not reach `left`. |
| Launch.WriteThroughLeftMut | crates/node/builder/src/launch/common.rs:318-321 | The intended `left_mut`: a write replaces `left` and leaves `right` alone. |
| Launch.LeftMutRoundTrip | crates/node/builder/src/launch/common.rs:318-321 | The written value is read back, and writing the old value restores the pair. |

## Left out

- The `Lagged` error of the subscription channel is not modelled. Its retry loop only skips messages the channel already overwrote.
- The pool's ordering trait is not modelled. A pending transaction carries an integer priority plus a tie-break standing for the rest of the total order.
- Transactions are identified by sender id, including in the prioritised-senders wrapper, which looks senders up by address. A one-to-one address map is assumed.
- The three wrappers are modelled over the base iterator only, not over each other.
- The reason passed to `mark_invalid` is not modelled. It is ignored by the code.
- Metrics, tracing, logging and the blocking-task spawner are not modelled. Neither is the oneshot channel that returns a spawned read's result: its receive error, which the source maps to an internal error, is left out.
- BestWrappers.PrioritizedNext: the `u64` addition of prioritised gas is unbounded here. Past `u64::MAX` the source panics when built with overflow checks and wraps otherwise; the model's unbounded integer excludes both.
- BestTransactions.NextKeepsSenderOrder: proved only without a subscription. A received transaction joins the independent set whenever its ancestor is absent, without checking whether that nonce was already yielded (crates/transaction-pool/src/pool/best.rs:169-173), so with a subscription the source can yield the same nonce of a sender twice.
- BestTransactions.NextMarksSkippedBlobsOnly: with a subscription the skipped blob is only known to have been poppable, not to rank above the yield. Intake can add a transaction during the call that outranks transactions popped before it, so the ranking comparison is stated only without a subscription. The same holds for the rank clause of BestWrappers.FilterYieldsBest and BestWrappers.FeesYieldBest.
- BestTransactions.Run: the nonce-ordering clause holds only without a subscription, for the same reason.
- EngineApi.RangeEnd: a failing `best_block_number` read is modelled as an unknown best block (`best` is `None`), which is how the code treats it.
- EngineApi.ValidateAndExecuteForkchoice: the consensus engine's update is a function the caller supplies. Its behaviour, and the payload build it starts, are not modelled.
- Payload conversion, `new_payload_v1`–`v3`, `get_payload_*` and the metered wrappers are not modelled. They are plumbing around the consensus engine.
- EvmConfig: the chain specification is two caller-supplied activation predicates. Fork activation is a different crate. The mainnet schedule used for the examples holds the published activation heights and timestamps.
- The panic of `revm_spec_by_timestamp_and_block_number` when no fork is active is modelled as a `Failure` result.
- Launch.ThreadCount: raising the file-descriptor limit and building the global thread pool are I/O, and not modelled. So is the `u64` to `usize` conversion of the reserved-core count, which cannot fail on 64-bit targets.
- Launch.SavePruningConfig: writing the toml file is I/O, and its outcome is a parameter.
- Launch.CheckPipelineConsistency: `StageId::ALL` is a parameter that must be non-empty, because the code unwraps its first element. Stage ids are numbers.
- Provider creation, genesis initialisation, metrics endpoints and component building in the launch context are not modelled. They are I/O and wiring.

## Findings

| source | as written | input that shows it | evidently intended | confidence | as-written member | corrected member |
|---|---|---|---|---|---|---|
| crates/node/builder/src/launch/common.rs:1122-1125 | `Attached::left_mut` returns a mutable reference to `right`, typed `&mut R` | `Attached { left: 1, right: 2 }`: writing 7 through `left_mut` gives left 1, right 7 | return `&mut self.left` typed `&mut L`, as `LaunchContextWith::left_mut` at line 318-321 does | high (not executed) | Launch.WriteThroughLeftMutAsWritten, Launch.LeftMutAsWrittenMissesLeft | Launch.WriteThroughLeftMut, Launch.LeftMutRoundTrip |

=== FILE: best_transactions.dfy ===
/**
 * The best-transactions iterator of the transaction pool
 * (crates/transaction-pool/src/pool/best.rs, `BestTransactions`).
 *
 * The iterator holds a snapshot of the pending pool (`all`), the transactions
 * that are executable right now (`independent`, ordered by priority), the
 * senders that were rejected (`invalid`) and an optional queue of
 * transactions that arrived after the snapshot was taken. Every `next()` call
 * drains that queue, pops the best independent transaction, skips it when its
 * sender is invalid, unlocks the sender's next nonce and hands the
 * transaction out (or skips it when blob transactions are excluded).
 *
 * The iterator is modelled as an immutable record and every operation as a
 * pure function from the old record to the new one.
 */
module BestTransactions {
  import opened Wrappers

  type SenderId = nat

  /** A pool transaction id: the sender and the nonce. */
  datatype TxId = TxId(sender: SenderId, nonce: nat)

  /** The id that becomes executable once `id` has been executed. */
  function Unlocks(id: TxId): TxId {
    TxId(id.sender, id.nonce + 1)
  }

  /** The id that must execute before `id`; a nonce-0 transaction has none. */
  function UncheckedAncestor(id: TxId): Option<TxId> {
    if id.nonce == 0 then None else Some(TxId(id.sender, id.nonce - 1))
  }

  /** The fields of a validated pool transaction that this iterator and its wrappers read. */
  datatype PoolTx = PoolTx(
    id: TxId,
    maxFeePerGas: nat,
    maxFeePerBlobGas: Option<nat>,
    isEip4844: bool,
    gasLimit: nat)

  /**
   * A pending transaction together with its ordering: the priority computed by
   * the pool's ordering and a tie-break value that stands for the rest of the
   * total order on pending transactions.
   */
  datatype Pending = Pending(tx: PoolTx, priority: int, tieBreak: int)

  /** The total order of pending transactions: `a` ranks strictly below `b`. */
  predicate Below(a: Pending, b: Pending) {
    a.priority < b.priority || (a.priority == b.priority && a.tieBreak < b.tieBreak)
  }

  /** `a` and `b` occupy the same place in the order (an ordered set keeps only one of them). */
  predicate SameRank(a: Pending, b: Pending) {
    a.priority == b.priority && a.tieBreak == b.tieBreak
  }

  /** An ordered set of pending transactions, stored lowest first. */
  predicate Ascending(s: seq<Pending>) {
    forall i, j :: 0 <= i < j < |s| ==> Below(s[i], s[j])
  }

  /** Some element of `s` has the same rank as `p`. */
  predicate HasRank(s: seq<Pending>, p: Pending) {
    exists i :: 0 <= i < |s| && SameRank(s[i], p)
  }

  /**
   * Ordered-set insertion: `p` is added unless an element of the same rank is
   * already present, in which case the set is left as it is.
   */
  function Insert(s: seq<Pending>, p: Pending): (r: seq<Pending>)
    requires Ascending(s)
    ensures Ascending(r)
    ensures forall x :: x in r <==> x in s || (x == p && !HasRank(s, p))
    ensures |r| == if HasRank(s, p) then |s| else |s| + 1
    decreases |s|
  {
    if |s| == 0 then [p]
    else if Below(p, s[0]) then
      assert !HasRank(s, p) by {
        forall i | 0 <= i < |s| ensures !SameRank(s[i], p) {
          if i > 0 { assert Below(s[0], s[i]); }
        }
      }
      [p] + s
    else if SameRank(p, s[0]) then
      assert HasRank(s, p) by { assert SameRank(s[0], p); }
      s
    else
      var tail := Insert(s[1..], p);
      assert HasRank(s, p) <==> HasRank(s[1..], p) by {
        if HasRank(s, p) {
          var i :| 0 <= i < |s| && SameRank(s[i], p);
          assert i > 0 && SameRank(s[1..][i - 1], p);
        }
        if HasRank(s[1..], p) {
          var i :| 0 <= i < |s[1..]| && SameRank(s[1..][i], p);
          assert SameRank(s[i + 1], p);
        }
      }
      forall x | x in tail ensures Below(s[0], x) {
        if x in s[1..] {
          var k :| 0 <= k < |s[1..]| && s[1..][k] == x;
          assert s[k + 1] == x;
        }
      }
      var r := [s[0]] + tail;
      forall i, j | 0 <= i < j < |r| ensures Below(r[i], r[j]) {
        if i == 0 { assert r[j] in tail; }
      }
      r
  }

  /** After insertion some element has the rank of `p`: `p` itself, or the element that kept its place. */
  lemma InsertHasRank(s: seq<Pending>, p: Pending)
    requires Ascending(s)
    ensures HasRank(Insert(s, p), p)
  {
    var r := Insert(s, p);
    if HasRank(s, p) {
      var i :| 0 <= i < |s| && SameRank(s[i], p);
      assert s[i] in r;
      var j :| 0 <= j < |r| && r[j] == s[i];
    } else {
      assert p in r;
      var j :| 0 <= j < |r| && r[j] == p;
    }
  }

  /** The state of a `BestTransactions` iterator. */
  datatype Best = Best(
    all: map<TxId, Pending>,
    independent: seq<Pending>,
    invalid: set<SenderId>,
    receiver: Option<seq<Pending>>,
    lastPriority: Option<int>,
    skipBlobs: bool)

  /**
   * The structural invariant the Rust types maintain: `independent` is an
   * ordered set and `all` is keyed by each transaction's own id.
   */
  predicate Valid(b: Best) {
    && Ascending(b.independent)
    && (forall id :: id in b.all ==> b.all[id].tx.id == id)
  }

  /** Number of transactions still waiting on the receiver (0 when there is none). */
  function QueueLen(b: Best): nat {
    match b.receiver
    case None => 0
    case Some(q) => |q|
  }

  /** Entries of `s` whose id is not a key of `all`. */
  function OrphansOf(s: seq<Pending>, all: map<TxId, Pending>): set<Pending>
    decreases |s|
  {
    if s == [] then {}
    else (if s[0].tx.id in all then {} else {s[0]}) + OrphansOf(s[1..], all)
  }

  lemma {:induction false} OrphansOfMembers(s: seq<Pending>, all: map<TxId, Pending>)
    ensures forall x :: x in OrphansOf(s, all) <==> x in s && x.tx.id !in all
    decreases |s|
  {
    if s != [] {
      OrphansOfMembers(s[1..], all);
      assert forall x :: x in s <==> x == s[0] || x in s[1..];
    }
  }

  /** Independent entries whose id is no longer (or not) a key of `all`. */
  function Orphans(b: Best): set<Pending> {
    OrphansOf(b.independent, b.all)
  }

  /**
   * `s` is strictly smaller than `b` in the lexicographic order on
   * (queued transactions, size of `all`, orphaned independent entries);
   * every round of `next()` that does not stop moves down this order.
   */
  predicate Decreased(s: Best, b: Best) {
    || QueueLen(s) < QueueLen(b)
    || (QueueLen(s) == QueueLen(b) && |s.all| < |b.all|)
    || (QueueLen(s) == QueueLen(b) && |s.all| == |b.all| && |Orphans(s)| < |Orphans(b)|)
  }

  /** `mark_invalid`: the sender of `tx` (and so all its later transactions) is rejected. */
  function MarkInvalid(b: Best, tx: PoolTx): (r: Best)
    ensures tx.id.sender in r.invalid
    ensures r.invalid - {tx.id.sender} == b.invalid - {tx.id.sender}
    ensures r.(invalid := b.invalid) == b
  {
    b.(invalid := b.invalid + {tx.id.sender})
  }

  /** `ancestor`: the pooled transaction with the same sender and the previous nonce. */
  function Ancestor(b: Best, id: TxId): Option<Pending> {
    match UncheckedAncestor(id)
    case None => None
    case Some(a) => if a in b.all then Some(b.all[a]) else None
  }

  /** The outcome of a non-blocking read of the receiver. */
  datatype Received = Received(state: Best, item: Option<Pending>)

  /**
   * `try_recv`: take the next queued transaction. Once a transaction has been
   * yielded (`lastPriority` is set), a queued transaction of strictly higher
   * priority ends the intake: it is consumed and dropped, and nothing is
   * returned.
   */
  function TryRecv(b: Best): (r: Received)
    ensures r.state.(receiver := b.receiver) == b
    ensures r.item.Some? ==>
      && b.receiver.Some? && |b.receiver.value| > 0
      && r.item.value == b.receiver.value[0]
      && r.state.receiver == Some(b.receiver.value[1..])
      && (b.lastPriority.Some? ==> r.item.value.priority <= b.lastPriority.value)
    ensures r.item.None? && QueueLen(b) > 0 ==>
      && b.lastPriority.Some?
      && b.receiver.value[0].priority > b.lastPriority.value
      && r.state.receiver == Some(b.receiver.value[1..])
    ensures r.item.None? && QueueLen(b) == 0 ==> r.state == b
  {
    match b.receiver
    case None => Received(b, None)
    case Some(q) =>
      if q == [] then Received(b, None)
      else
        var next := b.(receiver := Some(q[1..]));
        if b.lastPriority.Some? && q[0].priority > b.lastPriority.value then Received(next, None)
        else Received(next, Some(q[0]))
  }

  /**
   * One round of `add_new_transactions`: the received transaction always
   * enters `all`, and it enters `independent` only when its ancestor is not
   * in `all`.
   */
  function Admit(b: Best, p: Pending): (r: Best)
    requires Valid(b)
    ensures Valid(r)
    ensures r.all == b.all[p.tx.id := p]
    ensures Ancestor(b, p.tx.id).Some? ==> r.independent == b.independent
    ensures forall x :: x in r.independent <==>
      x in b.independent || (x == p && Ancestor(b, p.tx.id).None? && !HasRank(b.independent, p))
    ensures Ancestor(b, p.tx.id).None? ==> HasRank(r.independent, p)
    ensures r.(all := b.all, independent := b.independent) == b
  {
    if Ancestor(b, p.tx.id).None? then
      InsertHasRank(b.independent, p);
      b.(independent := Insert(b.independent, p), all := b.all[p.tx.id := p])
    else
      b.(all := b.all[p.tx.id := p])
  }

  /**
   * Whatever intake added to `independent` or `all` was taken from the front
   * of the queue: an independent entry not in `b`, and an entry of `all` that
   * differs from `b`'s, is one of the consumed transactions.
   */
  ghost predicate OnlyReceived(b: Best, r: Best) {
    && QueueLen(r) <= QueueLen(b)
    && (forall x :: x in r.independent && x !in b.independent ==>
          b.receiver.Some? && x in b.receiver.value[..QueueLen(b) - QueueLen(r)])
    && (forall id :: id in r.all ==>
          || (id in b.all && r.all[id] == b.all[id])
          || (b.receiver.Some? && r.all[id] in b.receiver.value[..QueueLen(b) - QueueLen(r)]))
  }

  /**
   * Intake from `b` to `r` consumed a prefix of the queue and left the rest
   * queued. It stopped early only at a transaction outranking the last
   * yielded priority, which was consumed; every transaction before it did
   * not outrank that priority, and every consumed one that did not is in
   * `r.all`.
   */
  ghost predicate StopsAtOutranking(b: Best, r: Best) {
    var k := QueueLen(b) - QueueLen(r);
    && QueueLen(r) <= QueueLen(b)
    && (r.receiver.Some? ==> b.receiver.Some? && r.receiver.value == b.receiver.value[k..])
    && (QueueLen(r) > 0 ==>
          && k > 0
          && b.lastPriority.Some?
          && b.receiver.value[k - 1].priority > b.lastPriority.value)
    && (forall i :: 0 <= i < k - 1 ==>
          b.lastPriority.None? || b.receiver.value[i].priority <= b.lastPriority.value)
    && (forall i ::
          (&& 0 <= i < k
           && (b.lastPriority.None? || b.receiver.value[i].priority <= b.lastPriority.value))
          ==> b.receiver.value[i].tx.id in r.all)
  }

  /** Admitting the head of the queue and then taking in the rest stops where `try_recv` does. */
  lemma StopsStep(b: Best, p: Pending, admitted: Best, r: Best)
    requires b.receiver.Some? && |b.receiver.value| > 0 && p == b.receiver.value[0]
    requires b.lastPriority.Some? ==> p.priority <= b.lastPriority.value
    requires admitted.receiver == Some(b.receiver.value[1..]) && admitted.lastPriority == b.lastPriority
    requires p.tx.id in r.all
    requires StopsAtOutranking(admitted, r)
    ensures StopsAtOutranking(b, r)
  {  }

  /** Admitting the head of the queue and then taking in the rest adds only received transactions. */
  lemma OnlyReceivedStep(b: Best, p: Pending, admitted: Best, r: Best)
    requires b.receiver.Some? && |b.receiver.value| > 0 && p == b.receiver.value[0]
    requires admitted.receiver == Some(b.receiver.value[1..])
    requires admitted.all == b.all[p.tx.id := p]
    requires forall x :: x in admitted.independent ==> x in b.independent || x == p
    requires OnlyReceived(admitted, r)
    ensures OnlyReceived(b, r)
  {  }

  /**
   * `add_new_transactions`: admit queued transactions until `try_recv` returns
   * nothing, that is until the queue is empty or a transaction outranking the
   * last yielded priority has been consumed. Of the `k` consumed transactions
   * only the last can have been refused, and every admitted one is in `all`.
   */
  function AddNewTransactions(b: Best): (r: Best)
    requires Valid(b)
    ensures Valid(r)
    ensures QueueLen(r) <= QueueLen(b)
    ensures QueueLen(r) == QueueLen(b) ==> r == b
    ensures r.invalid == b.invalid && r.lastPriority == b.lastPriority && r.skipBlobs == b.skipBlobs
    ensures r.receiver.None? <==> b.receiver.None?
    ensures b.all.Keys <= r.all.Keys
    ensures forall x :: x in b.independent ==> x in r.independent
    ensures StopsAtOutranking(b, r)
    ensures OnlyReceived(b, r)
    decreases QueueLen(b)
  {
    var rcv := TryRecv(b);
    match rcv.item
    case None => rcv.state
    case Some(p) =>
      var admitted := Admit(rcv.state, p);
      var r := AddNewTransactions(admitted);
      StopsStep(b, p, admitted, r);
      OnlyReceivedStep(b, p, admitted, r);
      r
  }

  /** A popped transaction and the iterator without it. */
  datatype Popped = Popped(best: Pending, rest: Best)

  /**
   * `pop_best`: remove the highest-ranked independent transaction and its id
   * from `all`; nothing else changes.
   */
  function PopBest(b: Best): (r: Option<Popped>)
    requires Valid(b)
    ensures r.None? <==> b.independent == []
    ensures r.Some? ==>
      && r.value.best in b.independent
      && (forall x :: x in b.independent && x != r.value.best ==> Below(x, r.value.best))
      && (forall x :: x in r.value.rest.independent <==> x in b.independent && x != r.value.best)
      && |r.value.rest.independent| == |b.independent| - 1
      && r.value.rest.all == b.all - {r.value.best.tx.id}
      && r.value.rest.(all := b.all, independent := b.independent) == b
      && Valid(r.value.rest)
  {
    if b.independent == [] then None
    else
      var n := |b.independent| - 1;
      var best := b.independent[n];
      var rest := b.independent[..n];
      forall x | x in b.independent && x != best ensures Below(x, best) {
        var i :| 0 <= i < |b.independent| && b.independent[i] == x;
      }
      assert best !in rest by {
        forall i | 0 <= i < n ensures rest[i] != best {
          assert Below(b.independent[i], best);
        }
      }
      assert b.independent == rest + [best];
      Some(Popped(best, b.(independent := rest, all := b.all - {best.tx.id})))
  }

  /** Move the transaction that `best` unlocks (if pooled) into `independent`. */
  function Unlock(b: Best, best: Pending): (r: Best)
    requires Valid(b)
    ensures Valid(r)
    ensures r.(independent := b.independent) == b
    ensures forall x :: x in r.independent ==>
      x in b.independent || (Unlocks(best.tx.id) in b.all && x == b.all[Unlocks(best.tx.id)])
    ensures forall x :: x in b.independent ==> x in r.independent
    ensures Unlocks(best.tx.id) in b.all ==> HasRank(r.independent, b.all[Unlocks(best.tx.id)])
  {
    var u := Unlocks(best.tx.id);
    if u in b.all then
      InsertHasRank(b.independent, b.all[u]);
      b.(independent := Insert(b.independent, b.all[u]))
    else b
  }

  /** The result of one round of the loop in `next()`. */
  datatype Round =
    | Exhausted(state: Best)
    | Skipped(state: Best, item: Pending)
    | Yielded(state: Best, item: Pending)

  lemma CardSubsetMinus<T>(a: set<T>, b: set<T>, x: T)
    requires a <= b - {x} && x in b
    ensures |a| < |b|
  {
    var c := b - {x};
    assert b == c + {x};
    assert |b| == |c| + 1;
    SubsetCard(a, c);
  }

  lemma {:induction false} SubsetCard<T>(a: set<T>, b: set<T>)
    requires a <= b
    ensures |a| <= |b|
    decreases |a|
  {
    if a != {} {
      var y :| y in a;
      SubsetCard(a - {y}, b - {y});
    }
  }

  /** Popping `best` and then unlocking (or not) moves the iterator down the termination order. */
  lemma PopDecreases(b: Best, pop: Popped, s: Best)
    requires Valid(b) && PopBest(b) == Some(pop)
    requires s == pop.rest || s == Unlock(pop.rest, pop.best)
    ensures Valid(s)
    ensures QueueLen(s) == QueueLen(b) && Decreased(s, b)
    ensures s.all == b.all - {pop.best.tx.id}
  {
    var id := pop.best.tx.id;
    if id in b.all {
      assert s.all.Keys == b.all.Keys - {id};
      assert b.all.Keys == s.all.Keys + {id};
    } else {
      assert s.all == b.all;
      OrphansOfMembers(s.independent, s.all);
      OrphansOfMembers(b.independent, b.all);
      forall x | x in s.independent && x !in pop.rest.independent ensures x.tx.id in s.all {
        var u := Unlocks(id);
        assert u in pop.rest.all && x == pop.rest.all[u];
      }
      assert Orphans(s) <= Orphans(b) - {pop.best};
      assert pop.best in Orphans(b);
      CardSubsetMinus(Orphans(s), Orphans(b), pop.best);
    }
  }

  /**
   * One round of the loop in `next()` (after new transactions were added):
   * pop the best transaction; skip it when its sender is invalid; otherwise
   * unlock the sender's next nonce, then skip it (marking the sender invalid)
   * when it is a blob transaction and blobs are excluded, or yield it.
   */
  function Iterate(b: Best): (r: Round)
    requires Valid(b)
    ensures Valid(r.state)
    ensures r.state.receiver == b.receiver && r.state.skipBlobs == b.skipBlobs
    ensures b.invalid <= r.state.invalid
    ensures r.state.all.Keys <= b.all.Keys
    ensures r.Exhausted? <==> b.independent == []
    ensures r.Exhausted? ==> r.state == b
    ensures !r.Exhausted? ==> QueueLen(r.state) == QueueLen(b) && Decreased(r.state, b)
    ensures !r.Exhausted? ==>
      && r.item in b.independent
      && (forall x :: x in b.independent && x != r.item ==> Below(x, r.item))
      && r.item !in r.state.independent
      && r.state.all == b.all - {r.item.tx.id}
    ensures r.Yielded? ==> r.item.tx.id.sender !in r.state.invalid
    ensures r.Yielded? && b.skipBlobs ==> !r.item.tx.isEip4844
    ensures r.Yielded? ==>
      r.state.lastPriority == if b.receiver.Some? then Some(r.item.priority) else b.lastPriority
    ensures r.Skipped? ==>
      && r.item.tx.id.sender in r.state.invalid
      && (r.item.tx.id.sender in b.invalid || (b.skipBlobs && r.item.tx.isEip4844))
      && r.state.lastPriority == b.lastPriority
    ensures r.Skipped? && r.item.tx.id.sender in b.invalid ==>
      r.state.invalid == b.invalid && forall x :: x in r.state.independent ==> x in b.independent
    ensures forall x :: x in r.state.independent && x !in b.independent ==>
      && !r.Exhausted?
      && x.tx.id == Unlocks(r.item.tx.id)
      && x.tx.id.sender !in b.invalid
      && x.tx.id in b.all && b.all[x.tx.id] == x
    ensures r.Yielded? ==> r.state.invalid == b.invalid
    ensures r.Skipped? ==> r.state.invalid == b.invalid + {r.item.tx.id.sender}
    ensures !r.Exhausted? ==> forall x :: x in b.independent && x != r.item ==> x in r.state.independent
    ensures !r.Exhausted? && r.item.tx.id.sender !in b.invalid && Unlocks(r.item.tx.id) in b.all ==>
      HasRank(r.state.independent, b.all[Unlocks(r.item.tx.id)])
  {
    match PopBest(b)
    case None => Exhausted(b)
    case Some(pop) =>
      var best := pop.best;
      if best.tx.id.sender in pop.rest.invalid then
        PopDecreases(b, pop, pop.rest);
        Skipped(pop.rest, best)
      else
        PopDecreases(b, pop, Unlock(pop.rest, best));
        Release(pop.rest, best)
  }

  /**
   * The rest of a round once the popped transaction's sender is known to be
   * valid: unlock its successor, then skip it as an excluded blob (marking
   * its sender) or yield it.
   */
  function Release(c: Best, best: Pending): (r: Round)
    requires Valid(c) && best !in c.independent
    ensures !r.Exhausted? && r.item == best
    ensures Valid(r.state) && best !in r.state.independent
    ensures r.state.(invalid := c.invalid, lastPriority := c.lastPriority) == Unlock(c, best)
    ensures r.Yielded? <==> !(c.skipBlobs && best.tx.isEip4844)
    ensures r.Yielded? ==>
      && r.state.invalid == c.invalid
      && r.state.lastPriority == if c.receiver.Some? then Some(best.priority) else c.lastPriority
    ensures r.Skipped? ==> r.state.invalid == c.invalid + {best.tx.id.sender} && r.state.lastPriority == c.lastPriority
  {
    var unlocked := Unlock(c, best);
    assert forall x :: x in unlocked.independent ==> x in c.independent || x.tx.id == Unlocks(best.tx.id);
    if unlocked.skipBlobs && best.tx.isEip4844 then
      Skipped(MarkInvalid(unlocked, best.tx), best)
    else
      var last := if unlocked.receiver.Some? then Some(best.priority) else unlocked.lastPriority;
      Yielded(unlocked.(lastPriority := last), best)
  }

  /**
   * Every element of `s` ranking above `item` (every element at all when
   * `item` is `None`) comes from a sender in `invalid`: `item` is the best
   * transaction of `s` whose sender is still valid.
   */
  predicate NoneValidAbove(s: seq<Pending>, item: Option<Pending>, invalid: set<SenderId>) {
    forall x :: x in s && (item.None? || Below(item.value, x)) ==> x.tx.id.sender in invalid
  }

  /**
   * `x` is independent in `b` or still queued on its receiver: a transaction
   * that a later round of `next()` can pop.
   */
  predicate Poppable(b: Best, x: Pending) {
    x in b.independent || (b.receiver.Some? && x in b.receiver.value)
  }

  /** Intake only moves queued transactions into the iterator: what is poppable afterwards was poppable before. */
  lemma IntakePoppable(b: Best)
    requires Valid(b)
    ensures forall x :: Poppable(AddNewTransactions(b), x) ==> Poppable(b, x)
  {  }

  /**
   * `x` is a transaction the iterator knows about: independent, pooled under
   * its own id, or still queued on the receiver.
   */
  predicate FromPool(b: Best, x: Pending) {
    || Poppable(b, x)
    || (x.tx.id in b.all && b.all[x.tx.id] == x)
  }

  /** Intake and a loop round only forget transactions: everything they know about was known before. */
  lemma RoundFromPool(b: Best)
    requires Valid(b)
    ensures forall x :: FromPool(Iterate(AddNewTransactions(b)).state, x) ==> FromPool(b, x)
  {  }

  /**
   * `x` is a transaction `next()` on `b` can have popped before it settled on
   * `item`: poppable from `b` and, when there is no receiver that could
   * deliver a better transaction later, ranked above `item`.
   */
  ghost predicate PoppedBefore(b: Best, item: Option<Pending>, x: Pending) {
    && Poppable(b, x)
    && (b.receiver.None? ==> item.None? || Below(item.value, x))
  }

  /**
   * Every sender that `next()` from `b` newly marked invalid sent a blob
   * transaction it popped and skipped: one poppable from `b` and, without a
   * receiver, ranked above the yielded transaction.
   */
  ghost predicate BlobSendersOnly(b: Best, r: Pulled) {
    forall z :: z in r.state.invalid && z !in b.invalid ==>
      exists x :: PoppedBefore(b, r.item, x) && x.tx.isEip4844 && x.tx.id.sender == z
  }

  /**
   * A round that popped `p` and skipped it, leaving `s`, followed by the rest
   * `r` of `next()` from `s`: the facts about the rest carry over to the
   * whole call. The only transaction the round can make independent is the
   * successor of `p`, whose sender is invalid by then.
   */
  lemma SkippedStep(b: Best, topped: Best, s: Best, p: Pending, r: Pulled)
    requires forall x :: Poppable(topped, x) ==> Poppable(b, x)
    requires b.receiver.None? ==> topped == b
    requires s.receiver == topped.receiver
    requires p in topped.independent
    requires forall x :: x in topped.independent && x != p ==> Below(x, p)
    requires forall x :: x in s.independent && x !in topped.independent ==> x.tx.id == Unlocks(p.tx.id)
    requires s.invalid == b.invalid + {p.tx.id.sender}
    requires p.tx.id.sender in b.invalid || p.tx.isEip4844
    requires s.invalid <= r.state.invalid
    requires r.item.Some? ==> r.item.value.tx.id.sender !in r.state.invalid && Poppable(s, r.item.value)
    requires BlobSendersOnly(s, r)
    ensures r.item.Some? ==> Poppable(b, r.item.value)
    ensures BlobSendersOnly(b, r)
  {  }

  /** The result of `next()`: the new state and the yielded transaction, if any. */
  datatype Pulled = Pulled(state: Best, item: Option<Pending>)

  /**
   * `next()`: add newly received transactions, then run rounds until one
   * yields a transaction or `independent` is empty.
   */
  function Next(b: Best): (r: Pulled)
    requires Valid(b)
    ensures Valid(r.state)
    ensures r.state.receiver.None? <==> b.receiver.None?
    ensures r.state.skipBlobs == b.skipBlobs
    ensures b.invalid <= r.state.invalid
    ensures r.item.None? ==> r.state.independent == []
    ensures r.item.Some? ==> r.item.value.tx.id.sender !in r.state.invalid
    ensures r.item.Some? && b.skipBlobs ==> !r.item.value.tx.isEip4844
    ensures r.item.Some? ==> Decreased(r.state, b)
    ensures r.item.Some? && b.receiver.Some? ==> r.state.lastPriority == Some(r.item.value.priority)
    ensures b.receiver.None? ==> r.state.lastPriority == b.lastPriority
    ensures r.item.Some? ==> FromPool(b, r.item.value)
    ensures !b.skipBlobs ==> r.state.invalid == b.invalid
    decreases QueueLen(b), |b.all|, |Orphans(b)|
  {
    var topped := AddNewTransactions(b);
    IntakePoppable(b);
    match Iterate(topped)
    case Exhausted(s) => Pulled(s, None)
    case Yielded(s, p) => Pulled(s, Some(p))
    case Skipped(s, p) =>
      assert Decreased(s, b);
      RoundFromPool(b);
      Next(s)
  }

  /** `next()` yields a transaction that was independent or queued when it was called. */
  lemma {:induction false} NextYieldsPoppable(b: Best)
    requires Valid(b)
    ensures Next(b).item.Some? ==> Poppable(b, Next(b).item.value)
    decreases QueueLen(b), |b.all|, |Orphans(b)|
  {
    var topped := AddNewTransactions(b);
    var round := Iterate(topped);
    IntakePoppable(b);
    if round.Skipped? {
      var s := round.state;
      assert Next(b) == Next(s);
      NextYieldsPoppable(s);
      assert forall x :: x in s.independent ==> x in topped.independent || x.tx.id.sender == round.item.tx.id.sender;
    }
  }

  /**
   * The only senders `next()` marks invalid are those of blob transactions it
   * popped and skipped: each newly invalid sender sent a blob transaction that
   * was poppable from `b` and, without a receiver, ranks above the yielded
   * transaction.
   */
  lemma {:induction false} NextMarksSkippedBlobsOnly(b: Best)
    requires Valid(b)
    ensures BlobSendersOnly(b, Next(b))
    decreases QueueLen(b), |b.all|, |Orphans(b)|
  {
    var topped := AddNewTransactions(b);
    var round := Iterate(topped);
    if round.Skipped? {
      var s := round.state;
      assert Next(b) == Next(s);
      NextMarksSkippedBlobsOnly(s);
      NextYieldsPoppable(s);
      IntakePoppable(b);
      SkippedStep(b, topped, s, round.item, Next(s));
    }
  }

  /**
   * `next()` yields the best transaction whose sender is still valid among
   * those independent after intake, and yields nothing only when every one of
   * them has an invalid sender.
   */
  lemma {:induction false} NextYieldsBest(b: Best)
    requires Valid(b)
    ensures NoneValidAbove(AddNewTransactions(b).independent, Next(b).item, Next(b).state.invalid)
    decreases QueueLen(b), |b.all|, |Orphans(b)|
  {
    var topped := AddNewTransactions(b);
    var round := Iterate(topped);
    if round.Skipped? {
      var s := round.state;
      assert Next(b) == Next(s);
      NextYieldsBest(s);
      assert forall x :: x in topped.independent ==> x == round.item || x in AddNewTransactions(s).independent;
    }
  }

  /**
   * After intake and a round that popped a transaction, whatever is poppable
   * was poppable before, or is the successor the round unlocked.
   */
  lemma RoundPoppable(b: Best)
    requires Valid(b)
    ensures var round := Iterate(AddNewTransactions(b));
      !round.Exhausted? ==>
        forall x :: Poppable(round.state, x) ==> Poppable(b, x) || x.tx.id.sender == round.item.tx.id.sender
  {  }

  /**
   * Whatever is poppable after `next()` was poppable before, or comes from a
   * sender that is now invalid or from the yielded transaction's sender (the
   * transaction its execution unlocked).
   */
  ghost predicate KnownOnly(b: Best, r: Pulled) {
    forall x :: Poppable(r.state, x) ==>
      || Poppable(b, x)
      || x.tx.id.sender in r.state.invalid
      || (r.item.Some? && x.tx.id.sender == r.item.value.tx.id.sender)
  }

  /** `next()` makes nothing poppable but the successors of the transactions it popped. */
  lemma {:induction false} NextKnownOnly(b: Best)
    requires Valid(b)
    ensures KnownOnly(b, Next(b))
    decreases QueueLen(b), |b.all|, |Orphans(b)|
  {
    var round := Iterate(AddNewTransactions(b));
    IntakePoppable(b);
    RoundPoppable(b);
    if round.Skipped? {
      var s := round.state;
      assert Next(b) == Next(s);
      NextKnownOnly(s);
    }
  }

  /**
   * Every transaction of `start` (the independent ones after intake) is
   * accounted for once `next()` returns: still independent, yielded, or from
   * an invalid sender.
   */
  ghost predicate Accounted(start: seq<Pending>, r: Pulled) {
    forall x :: x in start ==>
      x in r.state.independent || x.tx.id.sender in r.state.invalid || r.item == Some(x)
  }

  /** `next()` removes from `independent` only the transaction it yields and transactions of invalid senders. */
  lemma {:induction false} NextAccounted(b: Best)
    requires Valid(b)
    ensures Accounted(AddNewTransactions(b).independent, Next(b))
    decreases QueueLen(b), |b.all|, |Orphans(b)|
  {
    var topped := AddNewTransactions(b);
    var round := Iterate(topped);
    if round.Skipped? {
      var s := round.state;
      assert Next(b) == Next(s);
      NextAccounted(s);
      assert forall x :: x in topped.independent && x != round.item ==> x in AddNewTransactions(s).independent;
    }
  }

  /** `no_updates`: drop the receiver and forget the last yielded priority. */
  function NoUpdates(b: Best): (r: Best)
    ensures r.receiver.None? && r.lastPriority.None?
    ensures r.(receiver := b.receiver, lastPriority := b.lastPriority) == b
  {
    b.(receiver := None, lastPriority := None)
  }

  /** `set_skip_blobs` (and `skip_blobs`, which passes `true`). */
  function SetSkipBlobs(b: Best, skip: bool): (r: Best)
    ensures r.skipBlobs == skip
    ensures r.(skipBlobs := b.skipBlobs) == b
  {
    b.(skipBlobs := skip)
  }

  /** No element of `r` comes from a sender in `senders`. */
  predicate NoSenderIn(r: seq<Pending>, senders: set<SenderId>) {
    forall i :: 0 <= i < |r| ==> r[i].tx.id.sender !in senders
  }

  // ---------------------------------------------------------------------------
  // Properties
  // ---------------------------------------------------------------------------

  /** After `no_updates` nothing is received any more and no priority is recorded. */
  lemma NoUpdatesStopsIntake(b: Best)
    requires Valid(b)
    ensures AddNewTransactions(NoUpdates(b)) == NoUpdates(b)
    ensures Next(NoUpdates(b)).state.lastPriority.None?
    ensures Next(NoUpdates(b)).state.receiver.None?
  {
  }

  /**
   * Before anything has been yielded (no last priority) intake drains the
   * whole queue into `all`, so a second call finds nothing more to add.
   */
  lemma IntakeDrainsWithoutPriority(b: Best)
    requires Valid(b) && b.lastPriority.None?
    ensures QueueLen(AddNewTransactions(b)) == 0
    ensures forall i :: 0 <= i < QueueLen(b) ==> b.receiver.value[i].tx.id in AddNewTransactions(b).all
    ensures AddNewTransactions(AddNewTransactions(b)) == AddNewTransactions(b)
  {
  }

  /**
   * Per-sender nonce discipline of a pool snapshot: every independent entry is
   * the pooled transaction with its id, a sender has at most one independent
   * entry, and that entry carries the sender's lowest pooled nonce.
   */
  ghost predicate SenderOrdered(b: Best) {
    && Valid(b)
    && (forall p :: p in b.independent ==> p.tx.id in b.all && b.all[p.tx.id] == p)
    && (forall p, q :: p in b.independent && q in b.independent && p.tx.id.sender == q.tx.id.sender ==> p == q)
    && (forall p, k :: p in b.independent && k in b.all && k.sender == p.tx.id.sender ==> p.tx.id.nonce <= k.nonce)
  }

  /** A round keeps the nonce discipline, and the yielded nonce is below every remaining one of its sender. */
  lemma IterateKeepsSenderOrder(b: Best)
    requires SenderOrdered(b)
    ensures SenderOrdered(Iterate(b).state)
    ensures !Iterate(b).Exhausted? ==> Iterate(b).item.tx.id in b.all
    ensures !Iterate(b).Exhausted? ==>
      forall k :: k in Iterate(b).state.all && k.sender == Iterate(b).item.tx.id.sender ==>
        k.nonce > Iterate(b).item.tx.id.nonce
  {
    var r := Iterate(b);
    if !r.Exhausted? {
      var best := r.item;
      var s := r.state;
      forall k | k in s.all && k.sender == best.tx.id.sender ensures k.nonce > best.tx.id.nonce {
        assert k in b.all && k != best.tx.id;
        assert b.all[k].tx.id == k;
      }
      var u := Unlocks(best.tx.id);
      forall p | p in s.independent && p in b.independent
        ensures p.tx.id.sender != best.tx.id.sender
      {
        assert p != best;
      }
      forall p | p in s.independent && p !in b.independent
        ensures p.tx.id == u && u in b.all && b.all[u] == p
      {
        assert p in Unlock(PopBest(b).value.rest, best).independent;
      }
      forall p | p in s.independent
        ensures p.tx.id in s.all && s.all[p.tx.id] == p
        ensures forall k :: k in s.all && k.sender == p.tx.id.sender ==> p.tx.id.nonce <= k.nonce
      {
      }
    }
  }

  /** Without a receiver, `next()` keeps the nonce discipline and yields below every remaining nonce of the sender. */
  lemma {:induction false} NextKeepsSenderOrder(b: Best)
    requires SenderOrdered(b) && b.receiver.None?
    ensures KeepsOrder(b, Next(b))
    decreases |b.all|, |Orphans(b)|
  {
    assert AddNewTransactions(b) == b;
    IterateKeepsSenderOrder(b);
    var r := Iterate(b);
    if r.Skipped? {
      assert Next(b) == Next(r.state);
      NextKeepsSenderOrder(r.state);
      KeepsOrderAfterSkip(b, r.state, Next(r.state));
    }
  }

  /**
   * The state after `next()` keeps the nonce discipline and has no
   * subscription, its pool is part of the one before, and the yielded
   * transaction was pooled and is below every remaining nonce of its sender.
   */
  ghost predicate KeepsOrder(b: Best, r: Pulled) {
    && SenderOrdered(r.state)
    && r.state.receiver.None?
    && r.state.all.Keys <= b.all.Keys
    && (r.item.Some? ==> r.item.value.tx.id in b.all)
    && (r.item.Some? ==>
          forall k :: k in r.state.all && k.sender == r.item.value.tx.id.sender ==> k.nonce > r.item.value.tx.id.nonce)
  }

  /** What `next()` keeps from a state reached by a skip, it keeps from the state before the skip. */
  lemma KeepsOrderAfterSkip(b: Best, s: Best, r: Pulled)
    requires KeepsOrder(s, r) && s.all.Keys <= b.all.Keys
    ensures KeepsOrder(b, r)
  {
  }

  /** Every element of `r` has its id among the keys of `all`. */
  ghost predicate IdsIn(r: seq<Pending>, all: map<TxId, Pending>) {
    forall i :: 0 <= i < |r| ==> r[i].tx.id in all
  }

  /** Within `r`, the transactions of one sender appear in strictly increasing nonce order. */
  ghost predicate NoncesIncrease(r: seq<Pending>) {
    forall i, j :: 0 <= i < j < |r| && r[i].tx.id.sender == r[j].tx.id.sender ==>
      r[i].tx.id.nonce < r[j].tx.id.nonce
  }

  /** Prepending `p` keeps `IdsIn` and `NoncesIncrease` when `p` precedes every later nonce of its sender. */
  lemma ConsKeepsOrder(p: Pending, tail: seq<Pending>, all: map<TxId, Pending>, rest: map<TxId, Pending>)
    requires p.tx.id in all && rest.Keys <= all.Keys
    requires IdsIn(tail, rest) && NoncesIncrease(tail)
    requires forall k :: k in rest && k.sender == p.tx.id.sender ==> k.nonce > p.tx.id.nonce
    ensures IdsIn([p] + tail, all) && NoncesIncrease([p] + tail)
  {
    var r := [p] + tail;
    forall i | 0 <= i < |r| ensures r[i].tx.id in all {
      if i > 0 { assert r[i] == tail[i - 1]; }
    }
    forall i, j | 0 <= i < j < |r| && r[i].tx.id.sender == r[j].tx.id.sender
      ensures r[i].tx.id.nonce < r[j].tx.id.nonce
    {
      assert r[j] == tail[j - 1];
      if i > 0 { assert r[i] == tail[i - 1]; }
    }
  }

  /** Prepending a transaction of a sender outside `big` keeps a sequence free of the senders in `small`. */
  lemma ConsNoSender(p: Pending, tail: seq<Pending>, small: set<SenderId>, big: set<SenderId>)
    requires small <= big && p.tx.id.sender !in big && NoSenderIn(tail, big)
    ensures NoSenderIn([p] + tail, small)
  {
    var r := [p] + tail;
    forall i | 0 <= i < |r| ensures r[i].tx.id.sender !in small {
      if i > 0 { assert r[i] == tail[i - 1]; }
    }
  }

  /** What `n` calls of `next()` produce: the yielded transactions in order, and the state reached. */
  datatype Drawn = Drawn(items: seq<Pending>, state: Best)

  /**
   * Up to `n` calls of `next()`. The run stops early only at a state where
   * `next()` yields nothing; `state` is the state after the last yield.
   */
  function Run(b: Best, n: nat): (r: Drawn)
    requires Valid(b)
    ensures Valid(r.state)
    ensures |r.items| <= n
    ensures |r.items| < n ==> Next(r.state).item.None?
    ensures n > 0 && Next(b).item.Some? ==> |r.items| > 0 && r.items[0] == Next(b).item.value
    ensures NoSenderIn(r.items, b.invalid)
    ensures b.receiver.None? && SenderOrdered(b) ==> IdsIn(r.items, b.all) && NoncesIncrease(r.items)
    decreases n
  {
    if n == 0 then Drawn([], b)
    else
      var pulled := Next(b);
      if pulled.item.None? then Drawn([], b)
      else
        var tail := Run(pulled.state, n - 1);
        var items := [pulled.item.value] + tail.items;
        ConsNoSender(pulled.item.value, tail.items, b.invalid, pulled.state.invalid);
        assert b.receiver.None? && SenderOrdered(b) ==> IdsIn(items, b.all) && NoncesIncrease(items) by {
          if b.receiver.None? && SenderOrdered(b) {
            NextKeepsSenderOrder(b);
            ConsKeepsOrder(pulled.item.value, tail.items, b.all, pulled.state.all);
          }
        }
        Drawn(items, tail.state)
  }


  /** A run one call longer starts with the transaction the first call yields. */
  lemma RunStep(b: Best, n: nat)
    requires Valid(b) && Next(b).item.Some?
    ensures Run(b, n + 1) == Drawn([Next(b).item.value] + Run(Next(b).state, n).items, Run(Next(b).state, n).state)
  {
  }


}

=== FILE: best_wrappers.dfy ===
/**
 * The iterators layered over `BestTransactions` in
 * crates/transaction-pool/src/pool/best.rs: the fee filter
 * (`BestTransactionsWithFees`), the predicate filter
 * (`BestTransactionFilter`) and the prioritised-senders wrapper
 * (`BestTransactionsWithPrioritizedSenders`).
 *
 * Each wrapper is modelled directly over the base iterator state `Best`; its
 * `mark_invalid`, `no_updates` and `skip_blobs` forward to the base iterator
 * unchanged (the functions of the `BestTransactions` module).
 */
module BestWrappers {
  import opened Wrappers
  import opened BestTransactions

  // ---------------------------------------------------------------------------
  // Predicate filter
  // ---------------------------------------------------------------------------

  /**
   * `BestTransactionFilter::next`: pull from the base iterator until a
   * transaction satisfies `accept`; every rejected transaction marks its sender
   * invalid.
   */
  function NextFiltered(b: Best, accept: Pending -> bool): (r: Pulled)
    requires Valid(b)
    ensures Valid(r.state)
    ensures r.state.receiver.None? <==> b.receiver.None?
    ensures r.state.skipBlobs == b.skipBlobs
    ensures b.invalid <= r.state.invalid
    ensures r.item.None? ==> r.state.independent == []
    ensures r.item.Some? ==> accept(r.item.value)
    ensures r.item.Some? ==> r.item.value.tx.id.sender !in r.state.invalid
    ensures r.item.Some? && b.skipBlobs ==> !r.item.value.tx.isEip4844
    decreases QueueLen(b), |b.all|, |Orphans(b)|
  {
    var pulled := Next(b);
    match pulled.item
    case None => pulled
    case Some(p) =>
      if accept(p) then pulled
      else
        var marked := MarkInvalid(pulled.state, p.tx);
        assert Decreased(marked, b);
        NextFiltered(marked, accept)
  }

  /** A filter that accepts everything is the base iterator. */
  lemma FilterAcceptingAllIsNext(b: Best)
    requires Valid(b)
    ensures NextFiltered(b, _ => true) == Next(b)
  {
  }

  /**
   * Every sender the filter newly marked invalid sent a transaction it popped
   * and passed over, a skipped blob or one the predicate rejected: poppable
   * from `b` and, without a receiver, ranked above the yielded transaction.
   */
  ghost predicate RejectedSendersOnly(b: Best, r: Pulled, accept: Pending -> bool) {
    forall z :: z in r.state.invalid && z !in b.invalid ==>
      exists x :: PoppedBefore(b, r.item, x) && x.tx.id.sender == z && (x.tx.isEip4844 || !accept(x))
  }

  /** A skipped blob is a transaction passed over whatever the predicate. */
  lemma BlobsArePassedOver(b: Best, r: Pulled, accept: Pending -> bool)
    requires BlobSendersOnly(b, r)
    ensures RejectedSendersOnly(b, r, accept)
  {  }

  /**
   * A transaction `y` of an ordered set `s` that is not `p` and whose sender
   * is valid ranks below `p` when `p` is the best valid one of `s`.
   */
  lemma RanksBelowBest(s: seq<Pending>, p: Pending, y: Pending, invalid: set<SenderId>)
    requires Ascending(s) && p in s && y in s && y != p
    requires NoneValidAbove(s, Some(p), invalid) && y.tx.id.sender !in invalid
    ensures Below(y, p)
  {  }

  /**
   * One rejection of the filter: the base iterator yielded `p` from `b`
   * (with `start` independent after intake), the predicate rejected it, the
   * sender was marked (`marked`), and the filter went on from there to `r`
   * (with `next` independent after that intake). The facts about the rest
   * carry over to the whole call.
   */
  lemma RejectStep(b: Best, start: seq<Pending>, pulled: Pulled, p: Pending, marked: Best,
                   next: seq<Pending>, r: Pulled, accept: Pending -> bool)
    requires pulled.item == Some(p) && !accept(p) && marked == MarkInvalid(pulled.state, p.tx)
    requires b.invalid <= pulled.state.invalid && (pulled.state.receiver.None? <==> b.receiver.None?)
    requires b.receiver.None? ==> start == b.independent && Ascending(start)
    requires Poppable(b, p) && NoneValidAbove(start, Some(p), pulled.state.invalid)
    requires BlobSendersOnly(b, pulled) && KnownOnly(b, pulled) && Accounted(start, pulled)
    requires forall x :: x in marked.independent ==> x in next
    requires marked.invalid <= r.state.invalid
    requires r.item.Some? ==> accept(r.item.value) && r.item.value.tx.id.sender !in r.state.invalid
    requires r.item.Some? ==> Poppable(marked, r.item.value)
    requires NoneValidAbove(next, r.item, r.state.invalid) && RejectedSendersOnly(marked, r, accept)
    ensures NoneValidAbove(start, r.item, r.state.invalid)
    ensures r.item.Some? ==> Poppable(b, r.item.value)
    ensures RejectedSendersOnly(b, r, accept)
  {  }

  /**
   * The filter yields the best transaction, among those independent after
   * intake, whose sender is still valid when it returns; the transaction was
   * poppable from `b`; and the only senders it marks invalid are those of
   * transactions it passed over, skipped blobs or rejected ones.
   */
  lemma {:induction false} FilterYieldsBest(b: Best, accept: Pending -> bool)
    requires Valid(b)
    ensures NoneValidAbove(AddNewTransactions(b).independent, NextFiltered(b, accept).item, NextFiltered(b, accept).state.invalid)
    ensures NextFiltered(b, accept).item.Some? ==> Poppable(b, NextFiltered(b, accept).item.value)
    ensures RejectedSendersOnly(b, NextFiltered(b, accept), accept)
    decreases QueueLen(b), |b.all|, |Orphans(b)|
  {
    var pulled := Next(b);
    NextYieldsBest(b);
    NextYieldsPoppable(b);
    NextMarksSkippedBlobsOnly(b);
    if pulled.item.Some? && !accept(pulled.item.value) {
      var marked := MarkInvalid(pulled.state, pulled.item.value.tx);
      assert Decreased(marked, b);
      var r := NextFiltered(marked, accept);
      assert NextFiltered(b, accept) == r;
      FilterYieldsBest(marked, accept);
      NextKnownOnly(b);
      NextAccounted(b);
      RejectStep(b, AddNewTransactions(b).independent, pulled, pulled.item.value, marked,
                 AddNewTransactions(marked).independent, r, accept);
    } else {
      BlobsArePassedOver(b, pulled, accept);
    }
  }

  // ---------------------------------------------------------------------------
  // Fee filter
  // ---------------------------------------------------------------------------

  /**
   * The fee condition of `BestTransactionsWithFees`: the fee cap covers the
   * base fee and, when the transaction carries a blob fee cap, that cap covers
   * the blob base fee.
   */
  predicate FeeOk(tx: PoolTx, baseFee: nat, blobBaseFee: nat) {
    && tx.maxFeePerGas >= baseFee
    && (tx.maxFeePerBlobGas.None? || tx.maxFeePerBlobGas.value >= blobBaseFee)
  }

  /**
   * `BestTransactionsWithFees::next`: pull from the base iterator until a
   * transaction pays the current fees; an underpriced one marks its sender
   * invalid.
   */
  function NextWithFees(b: Best, baseFee: nat, blobBaseFee: nat): (r: Pulled)
    requires Valid(b)
    ensures Valid(r.state)
    ensures r.state.receiver.None? <==> b.receiver.None?
    ensures b.invalid <= r.state.invalid
    ensures r.item.None? ==> r.state.independent == []
    ensures r.item.Some? ==> FeeOk(r.item.value.tx, baseFee, blobBaseFee)
    ensures r.item.Some? ==> r.item.value.tx.id.sender !in r.state.invalid
    decreases QueueLen(b), |b.all|, |Orphans(b)|
  {
    var pulled := Next(b);
    match pulled.item
    case None => pulled
    case Some(p) =>
      if FeeOk(p.tx, baseFee, blobBaseFee) then pulled
      else
        var marked := MarkInvalid(pulled.state, p.tx);
        assert Decreased(marked, b);
        NextWithFees(marked, baseFee, blobBaseFee)
  }

  /** The fee condition as the predicate of a filter. */
  function FeeAccept(baseFee: nat, blobBaseFee: nat): Pending -> bool {
    (p: Pending) => FeeOk(p.tx, baseFee, blobBaseFee)
  }

  /** The fee filter is the predicate filter with the fee condition as its predicate. */
  lemma {:induction false} WithFeesIsFilter(b: Best, baseFee: nat, blobBaseFee: nat)
    requires Valid(b)
    ensures NextWithFees(b, baseFee, blobBaseFee) == NextFiltered(b, FeeAccept(baseFee, blobBaseFee))
    decreases QueueLen(b), |b.all|, |Orphans(b)|
  {
    var accept := FeeAccept(baseFee, blobBaseFee);
    var pulled := Next(b);
    if pulled.item.Some? && !FeeOk(pulled.item.value.tx, baseFee, blobBaseFee) {
      var marked := MarkInvalid(pulled.state, pulled.item.value.tx);
      assert Decreased(marked, b);
      WithFeesIsFilter(marked, baseFee, blobBaseFee);
      assert NextFiltered(b, accept) == NextFiltered(marked, accept);
    }
  }

  /**
   * The fee filter yields the best transaction, among those independent after
   * intake, whose sender is still valid when it returns; every transaction
   * ranked above it that it popped, underpriced ones included, has its sender
   * invalid by then; and the only senders it marks are those of underpriced
   * transactions and skipped blobs that it popped.
   */
  lemma FeesYieldBest(b: Best, baseFee: nat, blobBaseFee: nat)
    requires Valid(b)
    ensures var r := NextWithFees(b, baseFee, blobBaseFee);
      && NoneValidAbove(AddNewTransactions(b).independent, r.item, r.state.invalid)
      && (r.item.Some? ==> Poppable(b, r.item.value))
      && RejectedSendersOnly(b, r, FeeAccept(baseFee, blobBaseFee))
  {
    WithFeesIsFilter(b, baseFee, blobBaseFee);
    FilterYieldsBest(b, FeeAccept(baseFee, blobBaseFee));
  }

  // ---------------------------------------------------------------------------
  // Prioritised senders
  // ---------------------------------------------------------------------------

  /**
   * The state of a `BestTransactionsWithPrioritizedSenders` iterator: the base
   * iterator, the prioritised senders, the gas budget for their transactions,
   * the FIFO buffer of passed-over transactions and the gas used so far.
   */
  datatype Prioritized = Prioritized(
    inner: Best,
    senders: set<SenderId>,
    maxGas: nat,
    buffer: seq<Pending>,
    gas: nat)

  /** A transaction of a prioritised sender that fits in the remaining budget. */
  predicate IsHit(p: Prioritized, item: Pending) {
    item.tx.id.sender in p.senders && p.gas + item.tx.gasLimit <= p.maxGas
  }

  /** No element of `s` is a hit for `p`. */
  predicate NoHits(p: Prioritized, s: seq<Pending>) {
    forall i :: 0 <= i < |s| ==> !IsHit(p, s[i])
  }

  /** Appending a non-hit keeps the old buffer a prefix and the scanned suffix free of hits. */
  lemma NoHitsCons(p: Prioritized, q: Prioritized, item: Pending, buffer: seq<Pending>)
    requires q.senders == p.senders && q.gas == p.gas && q.maxGas == p.maxGas
    requires q.buffer == p.buffer + [item] && !IsHit(p, item)
    requires |q.buffer| <= |buffer| && buffer[..|q.buffer|] == q.buffer
    requires NoHits(q, buffer[|q.buffer|..])
    ensures |p.buffer| < |buffer| && buffer[..|p.buffer|] == p.buffer && buffer[|p.buffer|] == item
    ensures NoHits(p, buffer[|p.buffer|..])
  {  }

  /** The outcome of the `for item in &mut self.inner` loop. */
  datatype Scanned =
    | Hit(state: Prioritized, item: Pending)
    | Drained(state: Prioritized)

  /**
   * The scanning loop of `next()`: pull from the base iterator; a hit is
   * charged to the budget and returned, anything else is appended to the
   * buffer; the loop ends when the base iterator is exhausted.
   */
  function Scan(p: Prioritized): (r: Scanned)
    requires Valid(p.inner)
    ensures Valid(r.state.inner)
    ensures r.state.senders == p.senders && r.state.maxGas == p.maxGas
    ensures |p.buffer| <= |r.state.buffer| && r.state.buffer[..|p.buffer|] == p.buffer
    ensures NoHits(p, r.state.buffer[|p.buffer|..])
    ensures r.Hit? ==> IsHit(p, r.item) && r.state.gas == p.gas + r.item.tx.gasLimit
    ensures r.Drained? ==> r.state.gas == p.gas && r.state.inner.independent == []
    ensures |r.state.buffer| == |p.buffer| ==>
      && r.state.inner == Next(p.inner).state
      && (r.Drained? ==> Next(p.inner).item.None?)
      && (r.Hit? ==> Next(p.inner).item == Some(r.item))
    ensures |r.state.buffer| > |p.buffer| ==>
      && Next(p.inner).item.Some? && !IsHit(p, Next(p.inner).item.value)
      && r.state.buffer[|p.buffer|] == Next(p.inner).item.value
    decreases QueueLen(p.inner), |p.inner.all|, |Orphans(p.inner)|
  {
    var pulled := Next(p.inner);
    match pulled.item
    case None => Drained(p.(inner := pulled.state))
    case Some(item) =>
      if IsHit(p, item) then
        Hit(p.(inner := pulled.state, gas := p.gas + item.tx.gasLimit), item)
      else
        var q := p.(inner := pulled.state, buffer := p.buffer + [item]);
        var r := Scan(q);
        NoHitsCons(p, q, item, r.state.buffer);
        r
  }

  /** A transaction the base iterator yields first and that is not a hit is the first one buffered. */
  lemma ScanBuffersFirst(p: Prioritized)
    requires Valid(p.inner)
    requires Next(p.inner).item.Some? && !IsHit(p, Next(p.inner).item.value)
    ensures |p.buffer| < |Scan(p).state.buffer|
    ensures Scan(p).state.buffer[|p.buffer|] == Next(p.inner).item.value
  {
    var item := Next(p.inner).item.value;
    var q := p.(inner := Next(p.inner).state, buffer := p.buffer + [item]);
    assert Scan(p) == Scan(q);
    assert Scan(q).state.buffer[..|q.buffer|] == q.buffer;
    assert q.buffer[|p.buffer|] == item;
  }

  /**
   * The run `d` of the base iterator accounts for the scan to `r` that
   * started with buffer `start`: the transactions the scan buffered are
   * exactly those the run yielded, and one more call after the run returns
   * the hit (or nothing, when the scan drained the base iterator) and leaves
   * the base iterator where the scan left it.
   */
  ghost predicate RunMatches(start: seq<Pending>, d: Drawn, r: Scanned)
    requires Valid(d.state)
  {
    && |start| <= |r.state.buffer|
    && d.items == r.state.buffer[|start|..]
    && Next(d.state).state == r.state.inner
    && (r.Hit? ==> Next(d.state).item == Some(r.item))
    && (r.Drained? ==> Next(d.state).item.None?)
  }

  /** The scan from `p` to `r` buffered `n` transactions, and is a run of `n` calls of the base iterator followed by one more call. */
  ghost predicate ScannedByRun(p: Prioritized, r: Scanned, n: nat)
    requires Valid(p.inner)
  {
    && |r.state.buffer| == |p.buffer| + n
    && RunMatches(p.buffer, Run(p.inner, n), r)
  }

  /** Buffering `item` first and running on from there is a run one call longer. */
  lemma RunMatchesCons(start: seq<Pending>, item: Pending, r: Scanned, rest: Drawn, d: Drawn)
    requires Valid(rest.state) && Valid(d.state) && d == Drawn([item] + rest.items, rest.state)
    requires |start| < |r.state.buffer| && r.state.buffer[|start|] == item
    requires RunMatches(start + [item], rest, r)
    ensures RunMatches(start, d, r)
  {
    SliceCons(r.state.buffer, |start|);
  }

  /** The suffix from `i` is its first element followed by the suffix from `i + 1`. */
  lemma SliceCons(s: seq<Pending>, i: nat)
    requires i < |s|
    ensures s[i..] == [s[i]] + s[i + 1..]
  {
  }

  /** Every scan is a run of the base iterator followed by one more call. */
  lemma {:induction false} ScanIsRun(p: Prioritized)
    requires Valid(p.inner)
    ensures exists n: nat :: ScannedByRun(p, Scan(p), n)
    decreases QueueLen(p.inner), |p.inner.all|, |Orphans(p.inner)|
  {
    var pulled := Next(p.inner);
    if pulled.item.Some? && !IsHit(p, pulled.item.value) {
      var item := pulled.item.value;
      var q := p.(inner := pulled.state, buffer := p.buffer + [item]);
      assert Scan(p) == Scan(q);
      ScanIsRun(q);
      var n: nat :| ScannedByRun(q, Scan(q), n);
      ScanIsRunStep(p, q, item, Scan(q), n);
    } else {
      ScanIsRunBase(p, Scan(p));
    }
  }

  /** A scan that buffers nothing is the empty run followed by one call. */
  lemma ScanIsRunBase(p: Prioritized, r: Scanned)
    requires Valid(p.inner) && |r.state.buffer| == |p.buffer| && r.state.inner == Next(p.inner).state
    requires r.Drained? ==> Next(p.inner).item.None?
    requires r.Hit? ==> Next(p.inner).item == Some(r.item)
    ensures ScannedByRun(p, r, 0)
  {
  }

  /** A scan that buffers `item` first is a run one call longer than the scan it continues with. */
  lemma ScanIsRunStep(p: Prioritized, q: Prioritized, item: Pending, r: Scanned, n: nat)
    requires Valid(p.inner) && Next(p.inner).item == Some(item)
    requires q == p.(inner := Next(p.inner).state, buffer := p.buffer + [item])
    requires ScannedByRun(q, r, n) && r.state.buffer[..|q.buffer|] == q.buffer
    ensures ScannedByRun(p, r, n + 1)
  {
    PrefixLast(r.state.buffer, p.buffer, item);
    RunStep(p.inner, n);
    RunMatchesCons(p.buffer, item, r, Run(q.inner, n), Run(p.inner, n + 1));
  }

  /** A prefix ending in `item` puts `item` right after the shorter prefix. */
  lemma PrefixLast(s: seq<Pending>, a: seq<Pending>, item: Pending)
    requires |a| + 1 <= |s| && s[..|a| + 1] == a + [item]
    ensures |a| < |s| && s[|a|] == item
  {
    assert s[|a|] == s[..|a| + 1][|a|];
  }

  /** The result of the wrapper's `next()`. */
  datatype PrioritizedPulled = PrioritizedPulled(state: Prioritized, item: Option<Pending>)

  /**
   * `BestTransactionsWithPrioritizedSenders::next`: while budget remains, scan
   * for a prioritised transaction; otherwise (or when the scan drains the base
   * iterator) serve the oldest buffered transaction, and only when the buffer
   * is empty ask the base iterator again.
   */
  function PrioritizedNext(p: Prioritized): (r: PrioritizedPulled)
    requires Valid(p.inner)
    ensures Valid(r.state.inner)
    ensures r.state.senders == p.senders && r.state.maxGas == p.maxGas
    ensures p.gas <= p.maxGas ==> r.state.gas <= r.state.maxGas
    ensures r.state.gas == p.gas || (r.item.Some? && IsHit(p, r.item.value) && r.state.gas == p.gas + r.item.value.tx.gasLimit)
    ensures r.state.gas != p.gas ==> p.gas < p.maxGas
    ensures p.buffer != [] ==>
      || (&& r.item == Some(p.buffer[0]) && r.state.gas == p.gas
          && |p.buffer| - 1 <= |r.state.buffer| && r.state.buffer[..|p.buffer| - 1] == p.buffer[1..])
      || (&& r.item.Some? && IsHit(p, r.item.value) && p.gas < p.maxGas
          && r.state.gas == p.gas + r.item.value.tx.gasLimit
          && |p.buffer| <= |r.state.buffer| && r.state.buffer[..|p.buffer|] == p.buffer)
    ensures p.gas >= p.maxGas && p.buffer != [] ==> r.state.inner == p.inner && r.state.buffer == p.buffer[1..]
    ensures r.item.None? ==> r.state.buffer == [] && r.state.inner.independent == []
    ensures p.buffer == [] ==>
      || r.item == Next(p.inner).item
      || (&& r.item.Some? && IsHit(p, r.item.value)
          && Next(p.inner).item.Some? && !IsHit(p, Next(p.inner).item.value)
          && r.state.buffer != [] && r.state.buffer[0] == Next(p.inner).item.value)
      || (Next(p.inner).item.None? && r.item == Next(Next(p.inner).state).item)
  {
    if p.gas < p.maxGas then
      match Scan(p)
      case Hit(state, item) => PrioritizedPulled(state, Some(item))
      case Drained(state) =>
        ServeAfterDrain(p);
        Serve(state)
    else
      Serve(p)
  }

  /**
   * The tail of `next()`: pop the oldest buffered transaction, and only when
   * the buffer is empty ask the base iterator.
   */
  function Serve(p: Prioritized): (r: PrioritizedPulled)
    requires Valid(p.inner)
    ensures Valid(r.state.inner)
    ensures r.state.senders == p.senders && r.state.maxGas == p.maxGas && r.state.gas == p.gas
    ensures p.buffer != [] ==> r.item == Some(p.buffer[0]) && r.state == p.(buffer := p.buffer[1..])
    ensures p.buffer == [] ==> r.state.buffer == [] && r.item == Next(p.inner).item && r.state.inner == Next(p.inner).state
    ensures ServedFrom(p.inner, p.buffer, r)
  {
    if p.buffer != [] then
      PrioritizedPulled(p.(buffer := p.buffer[1..]), Some(p.buffer[0]))
    else
      var pulled := Next(p.inner);
      PrioritizedPulled(p.(inner := pulled.state), pulled.item)
  }

  /**
   * After a scan that drained the base iterator, serving pops the oldest
   * buffered transaction; with nothing buffered before or during the scan it
   * asks the base iterator once more.
   */
  lemma ServeAfterDrain(p: Prioritized)
    requires Valid(p.inner) && Scan(p).Drained?
    ensures p.buffer != [] ==>
      && Serve(Scan(p).state).item == Some(p.buffer[0])
      && |p.buffer| - 1 <= |Serve(Scan(p).state).state.buffer|
      && Serve(Scan(p).state).state.buffer[..|p.buffer| - 1] == p.buffer[1..]
    ensures p.buffer == [] ==>
      || Serve(Scan(p).state).item == Next(p.inner).item
      || (Next(p.inner).item.None? && Serve(Scan(p).state).item == Next(Next(p.inner).state).item)
  {
    var state := Scan(p).state;
    if p.buffer != [] {
      PrefixTail(p.buffer, state.buffer);
    }
  }

  /** Serving the head of a buffer keeps the rest of an old prefix as a prefix. */
  lemma PrefixTail(a: seq<Pending>, b: seq<Pending>)
    requires 0 < |a| <= |b| && b[..|a|] == a
    ensures b[1..][..|a| - 1] == a[1..]
  {  }

  /**
   * Serving with buffer `seen` and the base iterator at `inner`: the oldest
   * buffered transaction comes out and the rest stays buffered; with nothing
   * buffered, the base iterator is asked once more.
   */
  ghost predicate ServedFrom(inner: Best, seen: seq<Pending>, r: PrioritizedPulled)
    requires Valid(inner)
  {
    if seen != [] then
      r.item == Some(seen[0]) && r.state.buffer == seen[1..] && r.state.inner == inner
    else
      r.item == Next(inner).item && r.state.buffer == [] && r.state.inner == Next(inner).state
  }

  /**
   * `next()` with budget left, in terms of a run `d` of the base iterator:
   * the run yields no hits, and the call after it yields either a hit, which
   * is returned and charged while the run's transactions join the end of the
   * buffer, or nothing, after which the oldest of the old buffer followed by
   * the run's transactions is served.
   */
  ghost predicate ScanOutcomeWith(p: Prioritized, d: Drawn, r: PrioritizedPulled)
    requires Valid(d.state)
  {
    var pulled := Next(d.state);
    && NoHits(p, d.items)
    && (|| (&& pulled.item.Some? && IsHit(p, pulled.item.value)
            && r.item == pulled.item && r.state.inner == pulled.state
            && r.state.buffer == p.buffer + d.items
            && r.state.gas == p.gas + pulled.item.value.tx.gasLimit)
        || (&& pulled.item.None?
            && ServedFrom(pulled.state, p.buffer + d.items, r)
            && r.state.gas == p.gas))
  }

  /** `next()` with budget left as `k` calls of the base iterator, all of which yield, followed by one more. */
  ghost predicate ScanOutcome(p: Prioritized, k: nat, r: PrioritizedPulled)
    requires Valid(p.inner)
  {
    |Run(p.inner, k).items| == k && ScanOutcomeWith(p, Run(p.inner, k), r)
  }

  /**
   * The wrapper's `next()` in terms of the base iterator: with budget left it
   * is a scan of some number of calls followed by a hit or by serving; with
   * the budget spent it only serves.
   */
  lemma PrioritizedNextIsRun(p: Prioritized)
    requires Valid(p.inner)
    ensures p.gas < p.maxGas ==> exists k: nat :: ScanOutcome(p, k, PrioritizedNext(p))
    ensures p.gas >= p.maxGas ==>
      ServedFrom(p.inner, p.buffer, PrioritizedNext(p)) && PrioritizedNext(p).state.gas == p.gas
  {
    if p.gas < p.maxGas {
      ScanIsRun(p);
      var n: nat :| ScannedByRun(p, Scan(p), n);
      ScanOutcomeOf(p, Scan(p), PrioritizedNext(p), n);
    }
  }

  /** A sequence whose prefix is `a` and whose rest is `b` is `a` followed by `b`. */
  lemma PrefixThenRest(s: seq<Pending>, a: seq<Pending>, b: seq<Pending>)
    requires |a| <= |s| && s[..|a|] == a && s[|a|..] == b
    ensures s == a + b
  {  }

  /** A scan matched by the run `d`, followed by a hit or by serving, is the outcome of `d`. */
  lemma OutcomeOfRun(p: Prioritized, sc: Scanned, d: Drawn, r: PrioritizedPulled)
    requires Valid(d.state) && RunMatches(p.buffer, d, sc)
    requires sc.state.buffer[..|p.buffer|] == p.buffer && NoHits(p, sc.state.buffer[|p.buffer|..])
    requires sc.Hit? ==> IsHit(p, sc.item) && sc.state.gas == p.gas + sc.item.tx.gasLimit
    requires sc.Hit? ==> r == PrioritizedPulled(sc.state, Some(sc.item))
    requires sc.Drained? ==> r.state.gas == p.gas && ServedFrom(sc.state.inner, sc.state.buffer, r)
    ensures ScanOutcomeWith(p, d, r)
  {
    PrefixThenRest(sc.state.buffer, p.buffer, d.items);
  }

  /** A scan followed by a hit or by serving is the `ScanOutcome` of as many calls as the scan buffered. */
  lemma ScanOutcomeOf(p: Prioritized, sc: Scanned, r: PrioritizedPulled, n: nat)
    requires Valid(p.inner) && ScannedByRun(p, sc, n)
    requires sc.state.buffer[..|p.buffer|] == p.buffer && NoHits(p, sc.state.buffer[|p.buffer|..])
    requires sc.Hit? ==> IsHit(p, sc.item) && sc.state.gas == p.gas + sc.item.tx.gasLimit
    requires sc.Hit? ==> r == PrioritizedPulled(sc.state, Some(sc.item))
    requires sc.Drained? ==> r.state.gas == p.gas && ServedFrom(sc.state.inner, sc.state.buffer, r)
    ensures ScanOutcome(p, n, r)
  {
    OutcomeOfRun(p, sc, Run(p.inner, n), r);
  }

  /**
   * With no prioritised senders and nothing buffered, the wrapper yields the
   * same transaction as the base iterator.
   */
  lemma NoSendersYieldsNext(p: Prioritized)
    requires Valid(p.inner) && p.senders == {} && p.buffer == []
    requires Next(p.inner).item.Some?
    ensures PrioritizedNext(p).item == Next(p.inner).item
  {
    if p.gas < p.maxGas {
      assert !IsHit(p, Next(p.inner).item.value);
      ScanBuffersFirst(p);
    }
  }

  /** `set_skip_blobs` drops buffered blob transactions when blobs are skipped, keeping the rest in order. */
  function RetainNonBlobs(s: seq<Pending>): (r: seq<Pending>)
    ensures forall x :: x in r <==> x in s && !x.tx.isEip4844
    ensures |r| <= |s|
    decreases |s|
  {
    if s == [] then []
    else if s[0].tx.isEip4844 then RetainNonBlobs(s[1..])
    else [s[0]] + RetainNonBlobs(s[1..])
  }

  /** A buffer without blob transactions is kept as it is. */
  lemma {:induction false} RetainNonBlobsKeepsBlobFree(s: seq<Pending>)
    requires forall i :: 0 <= i < |s| ==> !s[i].tx.isEip4844
    ensures RetainNonBlobs(s) == s
    decreases |s|
  {
    if s != [] {
      RetainNonBlobsKeepsBlobFree(s[1..]);
    }
  }

  /** Retaining distributes over concatenation, so the kept transactions stay in their buffer order. */
  lemma {:induction false} RetainConcat(a: seq<Pending>, b: seq<Pending>)
    ensures RetainNonBlobs(a + b) == RetainNonBlobs(a) + RetainNonBlobs(b)
    decreases |a|
  {
    if a != [] {
      assert (a + b)[0] == a[0];
      assert (a + b)[1..] == a[1..] + b;
      RetainConcat(a[1..], b);
    } else {
      assert a + b == b;
    }
  }

  /** `set_skip_blobs` of the wrapper: filter the buffer when skipping, then forward. */
  function PrioritizedSetSkipBlobs(p: Prioritized, skip: bool): (r: Prioritized)
    ensures r.inner.skipBlobs == skip
    ensures r.inner.(skipBlobs := p.inner.skipBlobs) == p.inner
    ensures skip ==> r.buffer == RetainNonBlobs(p.buffer)
    ensures skip ==> forall x :: x in r.buffer <==> x in p.buffer && !x.tx.isEip4844
    ensures !skip ==> r.buffer == p.buffer
    ensures r.(inner := p.inner, buffer := p.buffer) == p
  {
    var buffer := if skip then RetainNonBlobs(p.buffer) else p.buffer;
    p.(inner := SetSkipBlobs(p.inner, skip), buffer := buffer)
  }
}

=== FILE: engine_api.dfy ===
/**
 * Request guards of the Engine API server
 * (crates/rpc/rpc-engine-api/src/engine_api.rs): the payload-bodies range and
 * hash requests, the blob request limit, the forkchoice payload-attribute
 * fallback and the requests-hash guard of `engine_newPayloadV4`.
 *
 * The block provider is a pair of lookup functions plus the best block number;
 * the transaction pool, the attribute validator and the beacon consensus
 * handle are function parameters.
 */
module EngineApi {
  import opened Wrappers

  /** Rust's `u64`. */
  type U64 = x: nat | x < 0x1_0000_0000_0000_0000

  const U64_MAX: U64 := 0xffff_ffff_ffff_ffff

  /** `MAX_PAYLOAD_BODIES_LIMIT`: the most bodies one request may ask for. */
  const MAX_PAYLOAD_BODIES_LIMIT: nat := 1024

  /** `MAX_BLOB_LIMIT`: the most versioned hashes one `engine_getBlobsVx` request may carry. */
  const MAX_BLOB_LIMIT: nat := 128

  /** A 32-byte hash, abstracted to a number. */
  type Hash = nat

  /** The errors of `EngineApiError` that these guards produce. */
  datatype ApiError =
    | PayloadRequestTooLarge(len: nat)
    | InvalidBodiesRange(start: nat, count: nat)
    | BlobRequestTooLarge(len: nat)
    | UnexpectedRequestsHash
    | Internal
    | InvalidPayloadAttributes
    | ForkChoiceUpdate

  /** The outcome of one provider block read: found, unknown, or a database error. */
  datatype Read<B> = Found(block: B) | Missing | ReadError

  /**
   * The block provider: reads by number and by hash, and the best block number
   * (`None` when `best_block_number()` fails).
   */
  datatype Provider<B> = Provider(byNumber: nat -> Read<B>, byHash: Hash -> Read<B>, best: Option<U64>)

  /** The entry a successful read contributes: the mapped block, or `None` when it is unknown. */
  function Entry<B, R>(read: Read<B>, f: B -> R): Option<R> {
    match read
    case Found(block) => Some(f(block))
    case _ => None
  }

  // ---------------------------------------------------------------------------
  // engine_getPayloadBodiesByRangeV1
  // ---------------------------------------------------------------------------

  /**
   * The last block number served by a range request: `start + count - 1`
   * saturating at `u64::MAX`, lowered to the best block when that is known.
   */
  function RangeEnd<B>(p: Provider<B>, start: U64, count: U64): (end: nat)
    requires count > 0
    ensures end <= start + count - 1 && end <= U64_MAX
    ensures p.best.Some? ==> end <= p.best.value
    ensures end == start + count - 1 || end == U64_MAX || (p.best.Some? && end == p.best.value)
  {
    var last := if start + count - 1 > U64_MAX then U64_MAX else start + count - 1;
    if p.best.Some? && last > p.best.value then p.best.value else last
  }

  /**
   * `served[i]` is the entry of block `start + i`, every one of those blocks is
   * a valid `u64` number, and none of their reads failed.
   */
  ghost predicate ServedFrom<B, R>(p: Provider<B>, start: nat, served: seq<Option<R>>, f: B -> R) {
    forall i: int :: 0 <= i < |served| ==>
      && start + i <= U64_MAX
      && !p.byNumber(start + i).ReadError?
      && served[i] == Entry(p.byNumber(start + i), f)
  }

  /** Extending a served prefix by the entry of the next block keeps it served. */
  lemma ServedFromSnoc<B, R>(p: Provider<B>, start: nat, served: seq<Option<R>>, f: B -> R, num: nat)
    requires ServedFrom(p, start, served, f)
    requires num == start + |served| && num <= U64_MAX && !p.byNumber(num).ReadError?
    ensures ServedFrom(p, start, served + [Entry(p.byNumber(num), f)], f)
  {
    var next := served + [Entry(p.byNumber(num), f)];
    forall i: int | 0 <= i < |next|
      ensures start + i <= U64_MAX && !p.byNumber(start + i).ReadError? && next[i] == Entry(p.byNumber(start + i), f)
    {
      if i < |served| {
        assert next[i] == served[i];
      } else {
        assert start + i == num;
      }
    }
  }

  /**
   * `get_payload_bodies_by_range_with`: check the size limit, then the range,
   * then read every block from `start` through the clamped end; a missing
   * block contributes `None`, a provider error fails the whole request.
   */
  method GetPayloadBodiesByRange<B, R>(p: Provider<B>, start: U64, count: U64, f: B -> R)
    returns (r: Result<seq<Option<R>>, ApiError>)
    ensures count > MAX_PAYLOAD_BODIES_LIMIT ==> r == Failure(PayloadRequestTooLarge(count))
    ensures count <= MAX_PAYLOAD_BODIES_LIMIT && (start == 0 || count == 0) ==>
      r == Failure(InvalidBodiesRange(start, count))
    ensures r.Failure? && r.error.Internal? ==>
      && 0 < start && 0 < count <= MAX_PAYLOAD_BODIES_LIMIT
      && exists n: nat :: start <= n <= RangeEnd(p, start, count) && p.byNumber(n).ReadError?
    ensures r.Success? ==>
      && 0 < start && 0 < count <= MAX_PAYLOAD_BODIES_LIMIT
      && |r.value| <= count
      && ServedFrom(p, start, r.value, f)
      && (p.best.Some? && |r.value| > 0 ==> start + |r.value| - 1 <= p.best.value)
      && (|r.value| < count ==> start + |r.value| > U64_MAX || (p.best.Some? && start + |r.value| > p.best.value))
    ensures r.Success? || r.error.PayloadRequestTooLarge? || r.error.InvalidBodiesRange? || r.error.Internal?
  {
    if count > MAX_PAYLOAD_BODIES_LIMIT {
      return Failure(PayloadRequestTooLarge(count));
    }
    if start == 0 || count == 0 {
      return Failure(InvalidBodiesRange(start, count));
    }
    var end := RangeEnd(p, start, count);
    var result: seq<Option<R>> := [];
    var num: nat := start;
    while num <= end
      invariant start <= num && (num <= end + 1 || num == start)
      invariant |result| == num - start
      invariant ServedFrom(p, start, result, f)
      decreases end + 1 - num
    {
      var read := p.byNumber(num);
      if read.ReadError? {
        return Failure(Internal);
      }
      var next := result + [Entry(read, f)];
      ServedFromSnoc(p, start, result, f, num);
      result := next;
      num := num + 1;
    }
    assert num == end + 1 || (num == start && end < start);
    return Success(result);
  }

  /** The request shapes of the range tests: a zero start or count is an invalid range, and 1025 bodies is too many. */
  method RangeRequestExamples<B>(p: Provider<B>, f: B -> B) returns (ok: bool)
    ensures ok
  {
    var a := GetPayloadBodiesByRange(p, 0, 0, f);
    var b := GetPayloadBodiesByRange(p, 0, 1, f);
    var c := GetPayloadBodiesByRange(p, 1, 0, f);
    var d := GetPayloadBodiesByRange(p, 0, 1025, f);
    ok := a == Failure(InvalidBodiesRange(0, 0)) && b == Failure(InvalidBodiesRange(0, 1))
      && c == Failure(InvalidBodiesRange(1, 0)) && d == Failure(PayloadRequestTooLarge(1025));
  }

  // ---------------------------------------------------------------------------
  // engine_getPayloadBodiesByHashV1
  // ---------------------------------------------------------------------------

  /**
   * `get_payload_bodies_by_hash_with`: reject more than 1024 hashes, then read
   * each hash in order; an unknown hash contributes `None` (trailing ones
   * included), a provider error fails the whole request.
   */
  method GetPayloadBodiesByHash<B, R>(p: Provider<B>, hashes: seq<Hash>, f: B -> R)
    returns (r: Result<seq<Option<R>>, ApiError>)
    ensures |hashes| > MAX_PAYLOAD_BODIES_LIMIT ==> r == Failure(PayloadRequestTooLarge(|hashes|))
    ensures |hashes| <= MAX_PAYLOAD_BODIES_LIMIT ==>
      (r.Failure? <==> exists i :: 0 <= i < |hashes| && p.byHash(hashes[i]).ReadError?)
    ensures r.Failure? && |hashes| <= MAX_PAYLOAD_BODIES_LIMIT ==> r.error == Internal
    ensures r.Success? ==>
      && |r.value| == |hashes|
      && forall i :: 0 <= i < |hashes| ==> r.value[i] == Entry(p.byHash(hashes[i]), f)
  {
    if |hashes| > MAX_PAYLOAD_BODIES_LIMIT {
      return Failure(PayloadRequestTooLarge(|hashes|));
    }
    var result: seq<Option<R>> := [];
    var i := 0;
    while i < |hashes|
      invariant 0 <= i <= |hashes| && |result| == i
      invariant forall k :: 0 <= k < i ==> !p.byHash(hashes[k]).ReadError?
      invariant forall k :: 0 <= k < i ==> result[k] == Entry(p.byHash(hashes[k]), f)
    {
      var read := p.byHash(hashes[i]);
      if read.ReadError? {
        return Failure(Internal);
      }
      result := result + [Entry(read, f)];
      i := i + 1;
    }
    return Success(result);
  }

  // ---------------------------------------------------------------------------
  // engine_getBlobsV1 / engine_getBlobsV2
  // ---------------------------------------------------------------------------

  /**
   * `get_blobs_v1` and `get_blobs_v2`: reject more than 128 versioned hashes,
   * otherwise answer from the pool, turning a pool error into an internal
   * error. The two versions differ only in the answer type `A`: a list of
   * optional blobs for version 1, an all-or-nothing list for version 2.
   */
  function GetBlobs<A, E>(hashes: seq<Hash>, lookup: seq<Hash> -> Result<A, E>): (r: Result<A, ApiError>)
    ensures |hashes| > MAX_BLOB_LIMIT <==> r == Failure(BlobRequestTooLarge(|hashes|))
    ensures r.Failure? ==> r.error == BlobRequestTooLarge(|hashes|) || r.error == Internal
    ensures r.Success? <==> |hashes| <= MAX_BLOB_LIMIT && lookup(hashes).Success?
    ensures r.Success? ==> r.value == lookup(hashes).value
  {
    if |hashes| > MAX_BLOB_LIMIT then Failure(BlobRequestTooLarge(|hashes|))
    else
      match lookup(hashes)
      case Success(blobs) => Success(blobs)
      case Failure(_) => Failure(Internal)
  }

  /** The size check does not depend on the pool or on the version's answer type. */
  lemma BlobLimitIgnoresPool<A, B, E>(hashes: seq<Hash>,
                                      v1: seq<Hash> -> Result<A, E>,
                                      v2: seq<Hash> -> Result<B, E>)
    ensures GetBlobs(hashes, v1) == Failure(BlobRequestTooLarge(|hashes|)) <==>
            GetBlobs(hashes, v2) == Failure(BlobRequestTooLarge(|hashes|))
  {
  }

  // ---------------------------------------------------------------------------
  // engine_forkchoiceUpdated
  // ---------------------------------------------------------------------------

  /** The status of a forkchoice response (`PayloadStatusEnum`). */
  datatype Status = ValidStatus | InvalidStatus | Syncing | Accepted

  /** A forkchoice response: the status and the id of a started payload build, if any. */
  datatype ForkchoiceUpdated = ForkchoiceUpdated(status: Status, payloadId: Option<nat>)

  /**
   * The outcome of `validate_and_execute_forkchoice`: the payload attributes
   * passed on to the forkchoice update (it is applied exactly once) and the
   * response.
   */
  datatype Forkchoice<A> = Forkchoice(applied: Option<A>, result: Result<ForkchoiceUpdated, ApiError>)

  /**
   * `validate_and_execute_forkchoice`: well-formed (or absent) attributes are
   * passed on unchanged; malformed ones are dropped, the forkchoice update is
   * applied without them, and the attribute error is reported unless the
   * update itself is INVALID.
   */
  function ValidateAndExecuteForkchoice<A>(
    attrs: Option<A>,
    validate: A -> Result<(), ApiError>,
    update: Option<A> -> Result<ForkchoiceUpdated, ApiError>)
    : (r: Forkchoice<A>)
    ensures attrs.None? || validate(attrs.value).Success? ==> r.applied == attrs && r.result == update(attrs)
    ensures attrs.Some? && validate(attrs.value).Failure? ==>
      && r.applied.None?
      && (update(None).Failure? ==> r.result == update(None))
      && (update(None).Success? && update(None).value.status == InvalidStatus ==> r.result == update(None))
      && (update(None).Success? && update(None).value.status != InvalidStatus ==>
            r.result == Failure(validate(attrs.value).error))
    ensures r.result.Success? ==> r.result == update(r.applied)
  {
    if attrs.Some? && validate(attrs.value).Failure? then
      match update(None)
      case Failure(e) => Forkchoice(None, Failure(e))
      case Success(res) =>
        if res.status == InvalidStatus then Forkchoice(None, Success(res))
        else Forkchoice(None, Failure(validate(attrs.value).error))
    else Forkchoice(attrs, update(attrs))
  }

  /** Malformed attributes never start a payload build: a successful answer is one to the update without them. */
  lemma MalformedAttributesStartNoBuild<A>(
    attrs: A,
    validate: A -> Result<(), ApiError>,
    update: Option<A> -> Result<ForkchoiceUpdated, ApiError>)
    requires validate(attrs).Failure?
    ensures ValidateAndExecuteForkchoice(Some(attrs), validate, update).result.Success? ==>
      ValidateAndExecuteForkchoice(Some(attrs), validate, update).result.value.status == InvalidStatus
  {
  }

  // ---------------------------------------------------------------------------
  // engine_newPayloadV4
  // ---------------------------------------------------------------------------

  /** The execution requests of a V4 payload: the full list or only its hash. */
  datatype RequestsOrHash = Requests(requests: seq<seq<bv8>>) | RequestsHash(hash: Hash)

  /**
   * `new_payload_v4`: requests given as a hash are accepted only when the node
   * is configured to accept them; otherwise the payload goes on to `execute`.
   */
  function NewPayloadV4<S>(requests: RequestsOrHash, acceptRequestsHash: bool,
                           execute: RequestsOrHash -> Result<S, ApiError>)
    : (r: Result<S, ApiError>)
    ensures requests.RequestsHash? && !acceptRequestsHash ==> r == Failure(UnexpectedRequestsHash)
    ensures requests.Requests? || acceptRequestsHash ==> r == execute(requests)
  {
    if requests.RequestsHash? && !acceptRequestsHash then Failure(UnexpectedRequestsHash)
    else execute(requests)
  }
}

=== FILE: evm_config.dfy ===
/**
 * The mapping from the active Ethereum hardfork to the EVM specification
 * (crates/ethereum/evm/src/config.rs): `revm_spec` and
 * `revm_spec_by_timestamp_and_block_number`.
 *
 * Fork activation comes from the chain specification, which is not part of
 * this model: a `ChainSpec` carries it as two predicates, one for the
 * timestamp-or-number activation of a fork and one for the Paris block check.
 */
module EvmConfig {
  import opened Wrappers

  /** The hardforks the mapping consults, oldest first. */
  datatype Hardfork =
    | Frontier | Homestead | Tangerine | SpuriousDragon | Byzantium | Petersburg
    | Istanbul | Berlin | London | Paris | Shanghai | Cancun | Prague | Osaka

  /** The EVM specifications the mapping can return (revm's `SpecId`). */
  datatype SpecId =
    | FRONTIER | HOMESTEAD | TANGERINE | SPURIOUS_DRAGON | BYZANTIUM | PETERSBURG
    | ISTANBUL | BERLIN | LONDON | MERGE | SHANGHAI | CANCUN | PRAGUE | OSAKA

  /** Position of a fork in history; later forks rank higher. */
  function Rank(f: Hardfork): nat {
    match f
    case Frontier => 0
    case Homestead => 1
    case Tangerine => 2
    case SpuriousDragon => 3
    case Byzantium => 4
    case Petersburg => 5
    case Istanbul => 6
    case Berlin => 7
    case London => 8
    case Paris => 9
    case Shanghai => 10
    case Cancun => 11
    case Prague => 12
    case Osaka => 13
  }

  /** The specification that implements each fork (Paris is revm's MERGE). */
  function SpecOf(f: Hardfork): SpecId {
    match f
    case Frontier => FRONTIER
    case Homestead => HOMESTEAD
    case Tangerine => TANGERINE
    case SpuriousDragon => SPURIOUS_DRAGON
    case Byzantium => BYZANTIUM
    case Petersburg => PETERSBURG
    case Istanbul => ISTANBUL
    case Berlin => BERLIN
    case London => LONDON
    case Paris => MERGE
    case Shanghai => SHANGHAI
    case Cancun => CANCUN
    case Prague => PRAGUE
    case Osaka => OSAKA
  }

  /** The fork a specification implements: the inverse of `SpecOf`. */
  function ForkOf(s: SpecId): (f: Hardfork)
    ensures SpecOf(f) == s
  {
    match s
    case FRONTIER => Frontier
    case HOMESTEAD => Homestead
    case TANGERINE => Tangerine
    case SPURIOUS_DRAGON => SpuriousDragon
    case BYZANTIUM => Byzantium
    case PETERSBURG => Petersburg
    case ISTANBUL => Istanbul
    case BERLIN => Berlin
    case LONDON => London
    case MERGE => Paris
    case SHANGHAI => Shanghai
    case CANCUN => Cancun
    case PRAGUE => Prague
    case OSAKA => Osaka
  }

  /** Distinct forks have distinct ranks and distinct specifications. */
  lemma RankInjective(f: Hardfork, g: Hardfork)
    ensures Rank(f) == Rank(g) <==> f == g
    ensures SpecOf(f) == SpecOf(g) <==> f == g
    ensures ForkOf(SpecOf(f)) == f
  {
  }

  /**
   * The activation data the mapping reads from a chain specification:
   * `activeAt(fork, timestamp, number)` is `fork(..).active_at_timestamp_or_number`
   * and `parisActiveAtBlock(number)` is `is_paris_active_at_block`.
   */
  datatype ChainSpec = ChainSpec(activeAt: (Hardfork, nat, nat) -> bool, parisActiveAtBlock: nat -> bool)

  /** The activation test the mapping applies to `f`: Paris is decided by the block number alone. */
  predicate Active(cs: ChainSpec, f: Hardfork, timestamp: nat, number: nat) {
    if f == Paris then cs.parisActiveAtBlock(number) else cs.activeAt(f, timestamp, number)
  }

  /** The forks in the order the mapping tests them, newest first. */
  const NewestFirst: seq<Hardfork> :=
    [Osaka, Prague, Cancun, Shanghai, Paris, London, Berlin, Istanbul,
     Petersburg, Byzantium, SpuriousDragon, Tangerine, Homestead, Frontier]

  /** When every fork of the list tests inactive, no fork at all is active. */
  lemma NoneActive(cs: ChainSpec, timestamp: nat, number: nat)
    requires forall i :: 0 <= i < |NewestFirst| ==> !Active(cs, NewestFirst[i], timestamp, number)
    ensures forall f :: !Active(cs, f, timestamp, number)
  {
    forall f ensures !Active(cs, f, timestamp, number) {
      match f
      case Osaka => assert NewestFirst[0] == f;
      case Prague => assert NewestFirst[1] == f;
      case Cancun => assert NewestFirst[2] == f;
      case Shanghai => assert NewestFirst[3] == f;
      case Paris => assert NewestFirst[4] == f;
      case London => assert NewestFirst[5] == f;
      case Berlin => assert NewestFirst[6] == f;
      case Istanbul => assert NewestFirst[7] == f;
      case Petersburg => assert NewestFirst[8] == f;
      case Byzantium => assert NewestFirst[9] == f;
      case SpuriousDragon => assert NewestFirst[10] == f;
      case Tangerine => assert NewestFirst[11] == f;
      case Homestead => assert NewestFirst[12] == f;
      case Frontier => assert NewestFirst[13] == f;
    }
  }

  /** The panic raised when no fork at all is active. */
  datatype NoActiveHardfork = NoActiveHardfork

  /**
   * `revm_spec_by_timestamp_and_block_number`: the specification of the newest
   * active fork, testing forks from Osaka down to Frontier; when none is
   * active the function panics.
   */
  function RevmSpecByTimestampAndBlockNumber(cs: ChainSpec, timestamp: nat, number: nat)
    : (r: Result<SpecId, NoActiveHardfork>)
    ensures r.Success? ==> Active(cs, ForkOf(r.value), timestamp, number)
    ensures r.Success? ==> forall g :: Active(cs, g, timestamp, number) ==> Rank(g) <= Rank(ForkOf(r.value))
    ensures r.Failure? ==> forall f :: !Active(cs, f, timestamp, number)
  {
    if cs.activeAt(Osaka, timestamp, number) then Success(OSAKA)
    else if cs.activeAt(Prague, timestamp, number) then Success(PRAGUE)
    else if cs.activeAt(Cancun, timestamp, number) then Success(CANCUN)
    else if cs.activeAt(Shanghai, timestamp, number) then Success(SHANGHAI)
    else if cs.parisActiveAtBlock(number) then Success(MERGE)
    else if cs.activeAt(London, timestamp, number) then Success(LONDON)
    else if cs.activeAt(Berlin, timestamp, number) then Success(BERLIN)
    else if cs.activeAt(Istanbul, timestamp, number) then Success(ISTANBUL)
    else if cs.activeAt(Petersburg, timestamp, number) then Success(PETERSBURG)
    else if cs.activeAt(Byzantium, timestamp, number) then Success(BYZANTIUM)
    else if cs.activeAt(SpuriousDragon, timestamp, number) then Success(SPURIOUS_DRAGON)
    else if cs.activeAt(Tangerine, timestamp, number) then Success(TANGERINE)
    else if cs.activeAt(Homestead, timestamp, number) then Success(HOMESTEAD)
    else if cs.activeAt(Frontier, timestamp, number) then Success(FRONTIER)
    else
      NoneActive(cs, timestamp, number);
      Failure(NoActiveHardfork)
  }

  /** The header fields the mapping reads. */
  datatype Header = Header(timestamp: nat, number: nat)

  /** `revm_spec`: the mapping applied to a header's timestamp and number. */
  function RevmSpec(cs: ChainSpec, header: Header): (r: Result<SpecId, NoActiveHardfork>)
    ensures r == RevmSpecByTimestampAndBlockNumber(cs, header.timestamp, header.number)
    ensures r.Success? ==> Active(cs, ForkOf(r.value), header.timestamp, header.number)
  {
    RevmSpecByTimestampAndBlockNumber(cs, header.timestamp, header.number)
  }

  // ---------------------------------------------------------------------------
  // Reference definition: the first active fork of a fixed list
  // ---------------------------------------------------------------------------

  /** The first fork of `forks` that is active, if any. */
  function FirstActive(cs: ChainSpec, forks: seq<Hardfork>, timestamp: nat, number: nat): (r: Option<Hardfork>)
    ensures r.Some? ==> r.value in forks && Active(cs, r.value, timestamp, number)
    ensures r.None? <==> forall i :: 0 <= i < |forks| ==> !Active(cs, forks[i], timestamp, number)
    decreases |forks|
  {
    if forks == [] then None
    else if Active(cs, forks[0], timestamp, number) then Some(forks[0])
    else FirstActive(cs, forks[1..], timestamp, number)
  }

  /** `forks` lists forks strictly newest first. */
  predicate NewestFirstOrder(forks: seq<Hardfork>) {
    forall i, j :: 0 <= i < j < |forks| ==> Rank(forks[i]) > Rank(forks[j])
  }

  /** In a newest-first list, the first active fork is the newest active one of the list. */
  lemma {:induction false} FirstActiveIsNewest(cs: ChainSpec, forks: seq<Hardfork>, timestamp: nat, number: nat)
    requires NewestFirstOrder(forks)
    ensures FirstActive(cs, forks, timestamp, number).Some? ==>
      forall i :: 0 <= i < |forks| && Active(cs, forks[i], timestamp, number) ==>
        Rank(forks[i]) <= Rank(FirstActive(cs, forks, timestamp, number).value)
    decreases |forks|
  {
    if forks != [] && !Active(cs, forks[0], timestamp, number) {
      FirstActiveIsNewest(cs, forks[1..], timestamp, number);
      var r := FirstActive(cs, forks, timestamp, number);
      forall i | 0 <= i < |forks| && Active(cs, forks[i], timestamp, number) && r.Some?
        ensures Rank(forks[i]) <= Rank(r.value)
      {
        assert forks[i] == forks[1..][i - 1];
      }
    }
  }

  /** The test order lists every fork exactly once, strictly newest first. */
  lemma NewestFirstListsEveryFork()
    ensures NewestFirstOrder(NewestFirst)
    ensures forall f :: f in NewestFirst
  {
    forall f ensures f in NewestFirst {
      match f
      case Osaka => assert NewestFirst[0] == f;
      case Prague => assert NewestFirst[1] == f;
      case Cancun => assert NewestFirst[2] == f;
      case Shanghai => assert NewestFirst[3] == f;
      case Paris => assert NewestFirst[4] == f;
      case London => assert NewestFirst[5] == f;
      case Berlin => assert NewestFirst[6] == f;
      case Istanbul => assert NewestFirst[7] == f;
      case Petersburg => assert NewestFirst[8] == f;
      case Byzantium => assert NewestFirst[9] == f;
      case SpuriousDragon => assert NewestFirst[10] == f;
      case Tangerine => assert NewestFirst[11] == f;
      case Homestead => assert NewestFirst[12] == f;
      case Frontier => assert NewestFirst[13] == f;
    }
    forall i, j | 0 <= i < j < |NewestFirst| ensures Rank(NewestFirst[i]) > Rank(NewestFirst[j]) {
      assert forall k :: 0 <= k < |NewestFirst| ==> Rank(NewestFirst[k]) == 13 - k;
    }
  }

  /**
   * Over any newest-first list of every fork, the mapping is the
   * specification of the list's first active fork.
   */
  lemma {:induction false} RevmSpecIsFirstActiveOf(cs: ChainSpec, forks: seq<Hardfork>, timestamp: nat, number: nat)
    requires NewestFirstOrder(forks) && forall f :: f in forks
    ensures RevmSpecByTimestampAndBlockNumber(cs, timestamp, number) ==
      match FirstActive(cs, forks, timestamp, number)
      case Some(f) => Success(SpecOf(f))
      case None => Failure(NoActiveHardfork)
  {
    var r := RevmSpecByTimestampAndBlockNumber(cs, timestamp, number);
    var first := FirstActive(cs, forks, timestamp, number);
    FirstActiveIsNewest(cs, forks, timestamp, number);
    if first.Some? {
      var f := first.value;
      assert r.Success?;
      var h := ForkOf(r.value);
      assert h in forks;
      var i :| 0 <= i < |forks| && forks[i] == h;
      assert Rank(h) <= Rank(f);
      RankInjective(f, h);
    } else {
      forall f ensures !Active(cs, f, timestamp, number) {
        assert f in forks;
        var i :| 0 <= i < |forks| && forks[i] == f;
      }
    }
  }

  /** The mapping is the specification of the first active fork, newest first, and panics exactly when there is none. */
  lemma RevmSpecIsFirstActive(cs: ChainSpec, timestamp: nat, number: nat)
    ensures RevmSpecByTimestampAndBlockNumber(cs, timestamp, number) ==
      match FirstActive(cs, NewestFirst, timestamp, number)
      case Some(f) => Success(SpecOf(f))
      case None => Failure(NoActiveHardfork)
  {
    NewestFirstListsEveryFork();
    RevmSpecIsFirstActiveOf(cs, NewestFirst, timestamp, number);
  }

  /**
   * Merge is chosen by the block number alone: when no timestamp-era fork
   * (Shanghai or later) is active, the choice of MERGE does not depend on the
   * timestamp.
   */
  lemma MergeIgnoresTimestamp(cs: ChainSpec, t1: nat, t2: nat, number: nat)
    requires forall f :: Rank(f) > Rank(Paris) ==> !cs.activeAt(f, t1, number) && !cs.activeAt(f, t2, number)
    ensures RevmSpecByTimestampAndBlockNumber(cs, t1, number) == Success(MERGE) <==>
            RevmSpecByTimestampAndBlockNumber(cs, t2, number) == Success(MERGE)
  {
    assert Rank(Shanghai) > Rank(Paris) && Rank(Cancun) > Rank(Paris);
    assert Rank(Prague) > Rank(Paris) && Rank(Osaka) > Rank(Paris);
  }

  // ---------------------------------------------------------------------------
  // Chain specifications of the tests
  // ---------------------------------------------------------------------------

  /**
   * A chain with every fork up to and including `x` active from genesis and no
   * later fork ever. `ChainSpecBuilder::mainnet().<fork>_activated()` keeps
   * mainnet's later forks at their published heights and timestamps instead,
   * so the two agree only on headers before the first of those, such as the
   * genesis header the tests use.
   */
  function ActivatedUpTo(x: Hardfork): (cs: ChainSpec)
    ensures forall f, t, n :: Active(cs, f, t, n) <==> Rank(f) <= Rank(x)
  {
    ChainSpec((f: Hardfork, t: nat, n: nat) => Rank(f) <= Rank(x), (n: nat) => Rank(Paris) <= Rank(x))
  }

  /** With forks up to `x` activated at genesis, the default header maps to `x`'s specification. */
  lemma GenesisActivation(x: Hardfork)
    ensures RevmSpec(ActivatedUpTo(x), Header(0, 0)) == Success(SpecOf(x))
  {
    var cs := ActivatedUpTo(x);
    var r := RevmSpec(cs, Header(0, 0));
    assert Active(cs, x, 0, 0);
    RankInjective(ForkOf(r.value), x);
  }

  /** When a fork is scheduled: at a block, at a timestamp, or never. */
  datatype ForkCondition = Block(block: nat) | Timestamp(time: nat) | Never

  /** `active_at_timestamp_or_number` of one fork condition. */
  predicate ActiveAtTimestampOrNumber(c: ForkCondition, timestamp: nat, number: nat) {
    match c
    case Block(b) => number >= b
    case Timestamp(t) => timestamp >= t
    case Never => false
  }

  /** The Ethereum mainnet schedule of the consulted forks. */
  function MainnetCondition(f: Hardfork): ForkCondition {
    match f
    case Frontier => Block(0)
    case Homestead => Block(1150000)
    case Tangerine => Block(2463000)
    case SpuriousDragon => Block(2675000)
    case Byzantium => Block(4370000)
    case Petersburg => Block(7280000)
    case Istanbul => Block(9069000)
    case Berlin => Block(12244000)
    case London => Block(12965000)
    case Paris => Block(15537394)
    case Shanghai => Timestamp(1681338455)
    case Cancun => Timestamp(1710338135)
    case Prague => Timestamp(1746612311)
    case Osaka => Never
  }

  /** Ethereum mainnet as a chain specification. */
  function Mainnet(): ChainSpec {
    ChainSpec(
      (f: Hardfork, t: nat, n: nat) => ActiveAtTimestampOrNumber(MainnetCondition(f), t, n),
      (n: nat) => n >= 15537394)
  }

  /**
   * Mainnet's published schedule as a table: the newest fork whose activation
   * timestamp or block has been reached (Osaka is not scheduled).
   */
  function MainnetSchedule(timestamp: nat, number: nat): SpecId {
    if timestamp >= 1746612311 then PRAGUE
    else if timestamp >= 1710338135 then CANCUN
    else if timestamp >= 1681338455 then SHANGHAI
    else if number >= 15537394 then MERGE
    else if number >= 12965000 then LONDON
    else if number >= 12244000 then BERLIN
    else if number >= 9069000 then ISTANBUL
    else if number >= 7280000 then PETERSBURG
    else if number >= 4370000 then BYZANTIUM
    else if number >= 2675000 then SPURIOUS_DRAGON
    else if number >= 2463000 then TANGERINE
    else if number >= 1150000 then HOMESTEAD
    else FRONTIER
  }

  /** On mainnet, every header maps to the specification its schedule row names. */
  lemma MainnetFollowsSchedule(timestamp: nat, number: nat)
    ensures RevmSpec(Mainnet(), Header(timestamp, number)) == Success(MainnetSchedule(timestamp, number))
  {
    forall f ensures Mainnet().activeAt(f, timestamp, number) == ActiveAtTimestampOrNumber(MainnetCondition(f), timestamp, number) {}
  }

  /** The mainnet timestamp examples: the first Cancun and the first Shanghai block. */
  lemma MainnetTimestampExamples()
    ensures RevmSpec(Mainnet(), Header(1710338135, 0)) == Success(CANCUN)
    ensures RevmSpec(Mainnet(), Header(1681338455, 0)) == Success(SHANGHAI)
  {
    MainnetFollowsSchedule(1710338135, 0);
    MainnetFollowsSchedule(1681338455, 0);
  }

  /** Mainnet at the Paris block and ten blocks before it. */
  lemma MainnetParisBoundary()
    ensures RevmSpec(Mainnet(), Header(0, 15537394)) == Success(MERGE)
    ensures RevmSpec(Mainnet(), Header(0, 15537394 - 10)) == Success(LONDON)
  {
    MainnetFollowsSchedule(0, 15537394);
    MainnetFollowsSchedule(0, 15537394 - 10);
  }

  /** Mainnet at ten blocks either side of Berlin. */
  lemma MainnetBerlinBoundary()
    ensures RevmSpec(Mainnet(), Header(0, 12244000 + 10)) == Success(BERLIN)
    ensures RevmSpec(Mainnet(), Header(0, 12244000 - 10)) == Success(ISTANBUL)
  {
    MainnetFollowsSchedule(0, 12244000 + 10);
    MainnetFollowsSchedule(0, 12244000 - 10);
  }

  /** Mainnet at ten blocks either side of Petersburg. */
  lemma MainnetPetersburgBoundary()
    ensures RevmSpec(Mainnet(), Header(0, 7280000 + 10)) == Success(PETERSBURG)
    ensures RevmSpec(Mainnet(), Header(0, 7280000 - 10)) == Success(BYZANTIUM)
  {
    MainnetFollowsSchedule(0, 7280000 + 10);
    MainnetFollowsSchedule(0, 7280000 - 10);
  }

  /** Mainnet at ten blocks either side of Spurious Dragon. */
  lemma MainnetSpuriousDragonBoundary()
    ensures RevmSpec(Mainnet(), Header(0, 2675000 + 10)) == Success(SPURIOUS_DRAGON)
    ensures RevmSpec(Mainnet(), Header(0, 2675000 - 10)) == Success(TANGERINE)
  {
    MainnetFollowsSchedule(0, 2675000 + 10);
    MainnetFollowsSchedule(0, 2675000 - 10);
  }

  /** Mainnet at ten blocks either side of Homestead. */
  lemma MainnetHomesteadBoundary()
    ensures RevmSpec(Mainnet(), Header(0, 1150000 + 10)) == Success(HOMESTEAD)
    ensures RevmSpec(Mainnet(), Header(0, 1150000 - 10)) == Success(FRONTIER)
  {
    MainnetFollowsSchedule(0, 1150000 + 10);
    MainnetFollowsSchedule(0, 1150000 - 10);
  }

  /** The mainnet block-number examples: the Paris block and both sides of each block-number fork boundary. */
  lemma MainnetBlockExamples()
    ensures RevmSpec(Mainnet(), Header(0, 15537394)) == Success(MERGE)
    ensures RevmSpec(Mainnet(), Header(0, 15537394 - 10)) == Success(LONDON)
    ensures RevmSpec(Mainnet(), Header(0, 12244000 + 10)) == Success(BERLIN)
    ensures RevmSpec(Mainnet(), Header(0, 12244000 - 10)) == Success(ISTANBUL)
    ensures RevmSpec(Mainnet(), Header(0, 7280000 + 10)) == Success(PETERSBURG)
    ensures RevmSpec(Mainnet(), Header(0, 7280000 - 10)) == Success(BYZANTIUM)
    ensures RevmSpec(Mainnet(), Header(0, 2675000 + 10)) == Success(SPURIOUS_DRAGON)
    ensures RevmSpec(Mainnet(), Header(0, 2675000 - 10)) == Success(TANGERINE)
    ensures RevmSpec(Mainnet(), Header(0, 1150000 + 10)) == Success(HOMESTEAD)
    ensures RevmSpec(Mainnet(), Header(0, 1150000 - 10)) == Success(FRONTIER)
  {
    MainnetParisBoundary();
    MainnetBerlinBoundary();
    MainnetPetersburgBoundary();
    MainnetSpuriousDragonBoundary();
    MainnetHomesteadBoundary();
  }
}

=== FILE: launch.dfy ===
/**
 * Decision helpers of the node launch context
 * (crates/node/builder/src/launch/common.rs): the global thread-pool size,
 * the prune-configuration precedence, the pipeline-consistency check that
 * chooses the initial backfill target, and the `Attached` pair.
 *
 * The database is a set of read functions that may fail; file I/O, logging
 * and the thread pool itself are outside the model.
 */
module Launch {
  import opened Wrappers

  // ---------------------------------------------------------------------------
  // Global thread pool
  // ---------------------------------------------------------------------------

  /**
   * `configure_globals`: the size of the global thread pool. With `available`
   * cores known, `reserved` of them are kept free (saturating at zero) but at
   * least one thread is used; when parallelism is unknown the size is 0, which
   * lets the pool choose.
   */
  function ThreadCount(available: Option<nat>, reserved: nat): (n: nat)
    requires available.Some? ==> available.value >= 1
    ensures available.None? ==> n == 0
    ensures available.Some? ==> 1 <= n <= available.value
    ensures available.Some? && reserved < available.value ==> n == available.value - reserved
    ensures available.Some? && reserved >= available.value ==> n == 1
  {
    match available
    case None => 0
    case Some(cores) =>
      var left := if reserved >= cores then 0 else cores - reserved;
      if left < 1 then 1 else left
  }

  // ---------------------------------------------------------------------------
  // Prune configuration
  // ---------------------------------------------------------------------------

  /**
   * `prune_config`: without a prune configuration on the command line the
   * toml one is used as it is; otherwise the command-line configuration,
   * merged with the toml one, wins. `merge` is `PruneConfig::merge`.
   */
  function PruneConfig<P>(cli: Option<P>, toml: Option<P>, merge: (P, Option<P>) -> P): (r: Option<P>)
    ensures cli.None? ==> r == toml
    ensures cli.Some? ==> r == Some(merge(cli.value, toml))
    ensures r.None? <==> cli.None? && toml.None?
  {
    match cli
    case None => toml
    case Some(c) => Some(merge(c, toml))
  }

  /** What `save_pruning_config_if_full_node` does besides updating the config. */
  datatype PruneAction = SaveToml | WarnTomlIgnored | NoAction

  /** The toml prune section after the call, the action taken, and whether the call returns an error. */
  datatype PruneSave<P> = PruneSave(toml: Option<P>, action: PruneAction, failed: bool)

  /**
   * `save_pruning_config_if_full_node`: a command-line prune configuration is
   * copied into an empty toml prune section, which is then saved (`saveFails`
   * is the outcome of writing the file; the in-memory section stays updated
   * when it fails); a toml prune section without a command-line configuration
   * only draws a warning.
   */
  function SavePruningConfig<P>(toml: Option<P>, cli: Option<P>, saveFails: bool): (r: PruneSave<P>)
    ensures r.toml != toml ==> toml.None? && cli.Some? && r.toml == cli
    ensures toml.None? ==> r.toml == cli
    ensures r.action == SaveToml <==> toml.None? && cli.Some?
    ensures r.action == WarnTomlIgnored <==> toml.Some? && cli.None?
    ensures r.failed <==> r.action == SaveToml && saveFails
  {
    if toml.None? then
      if cli.Some? then PruneSave(cli, SaveToml, saveFails) else PruneSave(toml, NoAction, false)
    else if cli.None? then PruneSave(toml, WarnTomlIgnored, false)
    else PruneSave(toml, NoAction, false)
  }

  /** After saving, the prune configuration the node uses has the toml section filled in whenever either source has one. */
  lemma SavedConfigFeedsPruneConfig<P>(toml: Option<P>, cli: Option<P>, saveFails: bool, merge: (P, Option<P>) -> P)
    ensures PruneConfig(cli, SavePruningConfig(toml, cli, saveFails).toml, merge).Some? <==> toml.Some? || cli.Some?
    ensures SavePruningConfig(toml, cli, saveFails).toml.Some? <==> toml.Some? || cli.Some?
  {
  }

  // ---------------------------------------------------------------------------
  // Pipeline consistency and the initial backfill target
  // ---------------------------------------------------------------------------

  /** A 32-byte block hash, abstracted to a number. */
  type Hash = nat

  /** The provider errors these helpers produce or pass on. */
  datatype ProviderError = BestBlockNotFound | Database(code: nat)

  /**
   * The database reads the helpers make: a stage's checkpoint block number
   * (`None` when the stage has none), the hash of a block number, and the last
   * block number.
   */
  datatype Db = Db(
    stageCheckpoint: nat -> Result<Option<nat>, ProviderError>,
    blockHash: nat -> Result<Option<Hash>, ProviderError>,
    lastBlockNumber: Result<nat, ProviderError>)

  /** The chain facts `ensure_chain_specific_db_checks` reads. */
  datatype Chain = Chain(isOptimism: bool, dev: bool, chainId: nat)

  /** The chain id of OP mainnet. */
  const OP_MAINNET_CHAIN_ID: nat := 10

  /** The Bedrock height of OP mainnet: the state before it must have been imported. */
  const BEDROCK_HEIGHT: nat := 105235063

  /**
   * `ensure_chain_specific_db_checks`: on OP mainnet outside dev mode the
   * database must reach the Bedrock height; every other chain passes.
   */
  function EnsureChainSpecificDbChecks(chain: Chain, db: Db): (r: Result<(), ProviderError>)
    ensures r.Failure? ==>
      && chain.isOptimism && !chain.dev && chain.chainId == OP_MAINNET_CHAIN_ID
      && (db.lastBlockNumber.Failure? || db.lastBlockNumber.value < BEDROCK_HEIGHT)
    ensures chain.isOptimism && !chain.dev && chain.chainId == OP_MAINNET_CHAIN_ID ==>
      && (db.lastBlockNumber.Failure? ==> r == Failure(db.lastBlockNumber.error))
      && (db.lastBlockNumber.Success? && db.lastBlockNumber.value < BEDROCK_HEIGHT ==> r == Failure(BestBlockNotFound))
  {
    if chain.isOptimism && !chain.dev && chain.chainId == OP_MAINNET_CHAIN_ID then
      match db.lastBlockNumber
      case Failure(e) => Failure(e)
      case Success(latest) => if latest < BEDROCK_HEIGHT then Failure(BestBlockNotFound) else Success(())
    else Success(())
  }

  /** A stage's checkpoint block number, 0 when it has none; only meaningful when the read succeeds. */
  function CheckpointOf(db: Db, stage: nat): nat {
    match db.stageCheckpoint(stage)
    case Success(Some(n)) => n
    case _ => 0
  }

  /** The outcome of the loop over the later stages: the first one behind `first`, or none. */
  datatype Scan = Behind(index: nat) | AllCaughtUp

  /** The stages at positions `lo` to `hi - 1` read successfully and none of them is behind `first`. */
  ghost predicate ClearBetween(db: Db, stages: seq<nat>, lo: nat, hi: nat, first: nat) {
    forall i :: lo <= i < hi && i < |stages| ==>
      db.stageCheckpoint(stages[i]).Success? && CheckpointOf(db, stages[i]) >= first
  }

  /**
   * The loop over `stages`: read each checkpoint in order (a missing one counts
   * as 0) and stop at the first that is below `first`; a read error stops the
   * loop with that error.
   */
  function ScanStages(db: Db, stages: seq<nat>, first: nat): (r: Result<Scan, ProviderError>)
    ensures r.Success? && r.value.Behind? ==>
      && r.value.index < |stages|
      && CheckpointOf(db, stages[r.value.index]) < first
      && (forall i :: 0 <= i <= r.value.index ==> db.stageCheckpoint(stages[i]).Success?)
      && (forall i :: 0 <= i < r.value.index ==> CheckpointOf(db, stages[i]) >= first)
    ensures r.Success? && r.value.AllCaughtUp? ==>
      forall i :: 0 <= i < |stages| ==> db.stageCheckpoint(stages[i]).Success? && CheckpointOf(db, stages[i]) >= first
    ensures r.Failure? ==> exists i :: 0 <= i < |stages| && db.stageCheckpoint(stages[i]) == Failure(r.error)
    ensures forall k :: 0 <= k < |stages| && db.stageCheckpoint(stages[k]).Failure? && ClearBetween(db, stages, 0, k, first) ==>
      r == Failure(db.stageCheckpoint(stages[k]).error)
    ensures forall k :: 0 <= k < |stages| && db.stageCheckpoint(stages[k]).Success? && CheckpointOf(db, stages[k]) < first
                        && ClearBetween(db, stages, 0, k, first) ==>
      r == Success(Behind(k))
    decreases |stages|
  {
    if stages == [] then Success(AllCaughtUp)
    else
      match db.stageCheckpoint(stages[0])
      case Failure(e) =>
        assert forall k :: 0 < k < |stages| ==> !ClearBetween(db, stages, 0, k, first);
        Failure(e)
      case Success(_) =>
        if CheckpointOf(db, stages[0]) < first then
          assert forall k :: 0 < k < |stages| ==> !ClearBetween(db, stages, 0, k, first);
          Success(Behind(0))
        else
          var rest := stages[1..];
          var r := ScanStages(db, rest, first);
          assert forall i :: 0 <= i < |rest| ==> rest[i] == stages[i + 1];
          forall k | 0 < k < |stages| && ClearBetween(db, stages, 0, k, first)
            ensures ClearBetween(db, rest, 0, k - 1, first)
          {
            forall i | 0 <= i < k - 1 && i < |rest|
              ensures db.stageCheckpoint(rest[i]).Success? && CheckpointOf(db, rest[i]) >= first
            {
              assert rest[i] == stages[i + 1];
            }
          }
          match r
          case Failure(e) => Failure(e)
          case Success(AllCaughtUp) => Success(AllCaughtUp)
          case Success(Behind(k)) => Success(Behind(k + 1))
  }

  /**
   * `check_pipeline_consistency`: read the first stage's checkpoint; when a
   * later stage (in `stages` order) is behind it, the target is the hash of the
   * block at the first stage's checkpoint; when none is, run the chain-specific
   * check and report no target. `stages` is `StageId::ALL`, which is never
   * empty.
   */
  function CheckPipelineConsistency(chain: Chain, db: Db, stages: seq<nat>): (r: Result<Option<Hash>, ProviderError>)
    requires |stages| > 0
    ensures db.stageCheckpoint(stages[0]).Failure? ==> r == Failure(db.stageCheckpoint(stages[0]).error)
    ensures r.Success? && r.value.Some? ==>
      && db.stageCheckpoint(stages[0]).Success?
      && (exists i :: 1 <= i < |stages| && CheckpointOf(db, stages[i]) < CheckpointOf(db, stages[0]))
      && db.blockHash(CheckpointOf(db, stages[0])) == r
    ensures
      && (forall i :: 0 <= i < |stages| ==> db.stageCheckpoint(stages[i]).Success?)
      && (forall i :: 1 <= i < |stages| ==> CheckpointOf(db, stages[i]) >= CheckpointOf(db, stages[0]))
      ==> r == (match EnsureChainSpecificDbChecks(chain, db)
                case Success(_) => Success(None)
                case Failure(e) => Failure(e))
    ensures
      && (forall i :: 0 <= i < |stages| ==> db.stageCheckpoint(stages[i]).Success?)
      && (exists i :: 1 <= i < |stages| && CheckpointOf(db, stages[i]) < CheckpointOf(db, stages[0]))
      ==> r == db.blockHash(CheckpointOf(db, stages[0]))
    ensures db.stageCheckpoint(stages[0]).Success? ==>
      forall k :: 1 <= k < |stages| && ClearBetween(db, stages, 1, k, CheckpointOf(db, stages[0])) ==>
        && (db.stageCheckpoint(stages[k]).Failure? ==> r == Failure(db.stageCheckpoint(stages[k]).error))
        && (db.stageCheckpoint(stages[k]).Success? && CheckpointOf(db, stages[k]) < CheckpointOf(db, stages[0]) ==>
              r == db.blockHash(CheckpointOf(db, stages[0])))
  {
    match db.stageCheckpoint(stages[0])
    case Failure(e) => Failure(e)
    case Success(_) =>
      var first := CheckpointOf(db, stages[0]);
      var rest := stages[1..];
      assert forall i :: 0 <= i < |rest| ==> rest[i] == stages[i + 1];
      forall k | 1 <= k < |stages| && ClearBetween(db, stages, 1, k, first)
        ensures ClearBetween(db, rest, 0, k - 1, first)
      {
        forall i | 0 <= i < k - 1 && i < |rest|
          ensures db.stageCheckpoint(rest[i]).Success? && CheckpointOf(db, rest[i]) >= first
        {
          assert rest[i] == stages[i + 1];
        }
      }
      var scan := ScanStages(db, rest, first);
      assert forall k :: 1 <= k < |stages| && db.stageCheckpoint(stages[k]).Failure? && ClearBetween(db, stages, 1, k, first) ==>
        db.stageCheckpoint(rest[k - 1]).Failure? && scan == Failure(db.stageCheckpoint(stages[k]).error);
      assert forall k :: 1 <= k < |stages| && db.stageCheckpoint(stages[k]).Success? && CheckpointOf(db, stages[k]) < first
                         && ClearBetween(db, stages, 1, k, first) ==>
        db.stageCheckpoint(rest[k - 1]).Success? && scan == Success(Behind(k - 1));
      match scan
      case Failure(e) => Failure(e)
      case Success(Behind(k)) =>
        assert CheckpointOf(db, stages[k + 1]) < first;
        db.blockHash(first)
      case Success(AllCaughtUp) =>
        match EnsureChainSpecificDbChecks(chain, db)
        case Failure(e) => Failure(e)
        case Success(_) => Success(None)
  }

  /**
   * `initial_backfill_target`: the configured `debug.tip` when there is one;
   * only without it does the pipeline-consistency check run (and can fail).
   */
  function InitialBackfillTarget(tip: Option<Hash>, chain: Chain, db: Db, stages: seq<nat>)
    : (r: Result<Option<Hash>, ProviderError>)
    requires |stages| > 0
    ensures tip.Some? ==> r == Success(tip)
    ensures tip.None? ==> r == CheckPipelineConsistency(chain, db, stages)
    ensures r.Failure? ==> tip.None?
  {
    if tip.Some? then Success(tip) else CheckPipelineConsistency(chain, db, stages)
  }

  /** A configured tip wins over any state of the database. */
  lemma TipOverridesDatabase(tip: Hash, chain: Chain, db1: Db, db2: Db, stages: seq<nat>)
    requires |stages| > 0
    ensures InitialBackfillTarget(Some(tip), chain, db1, stages) == InitialBackfillTarget(Some(tip), chain, db2, stages)
  {
  }

  /**
   * `terminate_after_initial_backfill`: the node stops after the first
   * backfill run when `debug.terminate` is set or a `debug.max_block` is
   * configured.
   */
  function TerminateAfterInitialBackfill(terminate: bool, maxBlock: Option<nat>): (r: bool)
    ensures r <==> terminate || maxBlock.Some?
  {
    terminate || maxBlock.Some?
  }

  // ---------------------------------------------------------------------------
  // Attached
  // ---------------------------------------------------------------------------

  /** `Attached<L, R>`: the state accumulated so far (`left`) and the newly attached value (`right`). */
  datatype Attached<L, R> = Attached(left: L, right: R)

  /** `map_left`: transform the left value; the right one is kept. */
  function MapLeft<L, R, T>(a: Attached<L, R>, f: L -> T): (r: Attached<T, R>)
    ensures r.right == a.right
    ensures r.left == f(a.left)
  {
    Attached(f(a.left), a.right)
  }

  /** `map_right`: transform the right value; the left one is kept. */
  function MapRight<L, R, T>(a: Attached<L, R>, f: R -> T): (r: Attached<L, T>)
    ensures r.left == a.left
    ensures r.right == f(a.right)
  {
    Attached(a.left, f(a.right))
  }

  /** Mapping the two sides commutes, and mapping with the identity changes nothing. */
  lemma MapLeftRightCommute<L, R, T, U>(a: Attached<L, R>, f: L -> T, g: R -> U)
    ensures MapRight(MapLeft(a, f), g) == MapLeft(MapRight(a, g), f)
    ensures MapLeft(a, x => x) == a && MapRight(a, x => x) == a
  {
  }

  /**
   * `Attached::left_mut` as written: it hands out the right value, so a write
   * through it replaces `right` and leaves `left` as it was.
   */
  function WriteThroughLeftMutAsWritten<L, R>(a: Attached<L, R>, v: R): (r: Attached<L, R>)
    ensures r.left == a.left && r.right == v
  {
    a.(right := v)
  }

  /** With `left` 1 and `right` 2, writing 7 through `left_mut` as written leaves `left` at 1. */
  lemma LeftMutAsWrittenMissesLeft()
    ensures WriteThroughLeftMutAsWritten(Attached(1, 2), 7) == Attached(1, 7)
    ensures WriteThroughLeftMutAsWritten(Attached(1, 2), 7).left != 7
  {
  }

  /**
   * `left_mut` as its name and the `LaunchContextWith::left_mut` counterpart
   * mean it: a write through it replaces `left` and leaves `right` alone.
   */
  function WriteThroughLeftMut<L, R>(a: Attached<L, R>, v: L): (r: Attached<L, R>)
    ensures r.left == v && r.right == a.right
  {
    a.(left := v)
  }

  /** Writing through the corrected `left_mut` and then reading `left` gives the written value; `right` is untouched. */
  lemma LeftMutRoundTrip<L, R>(a: Attached<L, R>, v: L)
    ensures WriteThroughLeftMut(a, v).left == v
    ensures MapRight(WriteThroughLeftMut(a, v), x => x) == WriteThroughLeftMut(a, v)
    ensures WriteThroughLeftMut(WriteThroughLeftMut(a, v), a.left) == a
  {
  }
}

=== FILE: wrappers.dfy ===
/** Option and Result values shared by every module of the model. */
module Wrappers {

  /** A value that may be absent (Rust's `Option`). */
  datatype Option<+T> = None | Some(value: T)

  /** A value or an error (Rust's `Result`). */
  datatype Result<+T, +E> = Success(value: T) | Failure(error: E)
}
